=== FILE: README.md ===
# MetricsApp data core in Dafny

This project models the pure data side of `MetricsApp`, the Jupyter widget in
`rectools/visuals/metrics_app.py`. The widget compares recommender models
metric against metric. It checks the metrics table (one row per model and fold)
and the optional metadata table, merges them, and derives two chart tables. One
is the rows of a single fold. The other is the per-model average over the folds
with the model's metadata attached. A few rules then decide which table is
drawn, how points are coloured and labelled, and which controls are visible.

The model follows pandas 2 semantics. In particular `groupby().mean()` on a
string metric column raises `TypeError`; pandas 1.x instead dropped the
column (with a warning in 1.5).

Tables are immutable: a list of column names and a sequence of rows. Each row
maps a column name to a `Cell`, which is an integer, a real, a string or
missing (NaN). Every validator returns the Python exception kind it raises, as
an `Error` with a `Reason`. Every view is a pure function returning a `Result`.

Modules:

- `Cells`: cells, their `astype(str)` text, and the order `sorted` uses.
- `Outcomes`: error kinds and reasons, `Result`, `Option` and `Outcome`.
- `Seqs`: first-appearance de-duplication (`unique`/`drop_duplicates`).
- `Sorting`: `sorted(column.unique())`.
- `Tables`: column access, the space-to-underscore rename, and the left merge on `Model`.
- `Validation`: the four `_validate_*` checks.
- `Construction`: `construct`, `model_names` and `fold_ids`.
- `Views`: the fold view, the average view and `_create_chart_data`.
- `Controls`: the colour column, legend title and visibility rules, the trace-name key, and the default control values.
- `Scenarios`: the test suite's tables, with what the model proves about each.

Three facts about the code shape the model:

- The name check renames the model column of the caller's table in place (lines 188 and 193). So the merge at line 134, and the default metadata at line 131, already see renamed names. The second rename at line 135 then changes nothing (`Construction.MergedModelsNormalized`).
- The metadata check's NaN test at lines 205-206 can never fire. `nunique()` skips NaN, so a NaN model cell already fails the uniqueness test at lines 203-204, with the same exception kind (`Validation.MetaMissingModelUnreported`).
- The test file calls `construct` with the keywords `df_metrics_data` and `plotly_kwargs`. The signature at `rectools/visuals/metrics_app.py:59-66` does not accept them. The scenarios therefore model what those tests evidently intend: the error kind each table should raise.

## Model

| member | source | states |
|---|---|---|
| Sorting.SortedDistinct | rectools/visuals/metrics_app.py:146 | `sorted(unique())` fails with `TypeError` exactly when strings meet non-strings; otherwise the result is strictly increasing and holds exactly the values present |
| Sorting.StrictlySortedUnique | rectools/visuals/metrics_app.py:144-146 | two strictly sorted lists with the same elements are equal, so the sorted list does not depend on the order `unique()` produced |
| Seqs.Distinct | rectools/visuals/metrics_app.py:131 | `drop_duplicates` keeps each value once, holds exactly the input's values, and keeps them in order of first appearance |
| Seqs.DistinctLength | rectools/visuals/metrics_app.py:190 | `nunique() == len()` exactly when the column has no repeated value |
| Tables.NormalizeName | rectools/visuals/metrics_app.py:188 | `replace(" ", "_")` keeps the length, turns every space into an underscore, and leaves every other character in place |
| Tables.NormalizeNameFixed | rectools/visuals/metrics_app.py:135 | a name is unchanged by the rename exactly when it has no space, and renaming twice equals renaming once |
| Cells.ColumnCellText | rectools/visuals/metrics_app.py:188-189 | `astype(str)` of a cell: an integer in a column pandas stores as float64 is written as the equal float (`11` becomes "11.0"); in any other column, and for every non-integer cell, the cell's own text |
| Tables.NormalizeModel | rectools/visuals/metrics_app.py:188 | `astype(str).str.replace(" ", "_")` on one model cell is the string `NormalizeName` of the cell's text as its column's dtype writes it: every space becomes an underscore, so the result has no space and a space-free string is kept |
| Tables.NormalizeModels | rectools/visuals/metrics_app.py:188-193 | the rename touches only the model column and keeps the columns and the row count |
| Tables.ReplaceModelSpaces | rectools/visuals/metrics_app.py:135 | the post-merge rename keeps the columns, the row count and every non-model cell; a string model name becomes `NormalizeName` of itself (each space turned into an underscore), anything else becomes NaN |
| Tables.ReplaceModelSpacesNoop | rectools/visuals/metrics_app.py:135 | on a table whose model names are space-free strings, the post-merge rename is the identity |
| Tables.LeftMerge | rectools/visuals/metrics_app.py:134 | the merged columns are the left columns, in order, followed by the right-hand columns the left lacks, and no left row is lost |
| Tables.LeftMergeUnique | rectools/visuals/metrics_app.py:134 | when right-hand models are unique, the left merge keeps one row per left row, in order, each joined with its model's right-hand row |
| Tables.LeftMergeCell | rectools/visuals/metrics_app.py:134 | one merged cell reads the right-hand row on the right table's own columns and the left row everywhere else |
| Tables.MergeNothingNew | rectools/visuals/metrics_app.py:130-134 | merging a unique right table that adds no column returns the left table unchanged |
| Tables.MergeOnModel | rectools/visuals/metrics_app.py:134 | merging the renamed (string) model names with the metadata fails with `ValueError` exactly when the metrics table has rows and the metadata's model column is numeric (at least one row, only numbers); otherwise it is the left merge |
| Tables.StringKeysMerge | rectools/visuals/metrics_app.py:134 | metadata with no rows, or with at least one string model name, always merges |
| Validation.BaseCheck | rectools/visuals/metrics_app.py:157-165 | passes exactly when there is a model column, a metric column and no NaN; otherwise the first failing test's error: `KeyError`, then `KeyError`, then `ValueError` |
| Validation.CheckGroups | rectools/visuals/metrics_app.py:178-182 | the per-group loop passes exactly when every group's fold set equals the reference set; a failure names a visited model, by fold count or by fold names |
| Validation.SplitCheck | rectools/visuals/metrics_app.py:168-182 | no fold column: no-op; no model groups: `StopIteration` from `next(iter(...))`; otherwise passes exactly when all models have the same fold set, and fails with `ValueError` |
| Validation.SameFoldsIffGroups | rectools/visuals/metrics_app.py:172-182 | comparing every group with the first group's folds is the same as all models having the same folds |
| Validation.RepeatsIffShorter | rectools/visuals/metrics_app.py:190 | `nunique() != len()` on a key column exactly when two rows share a key |
| Validation.NamesCheckAsWritten | rectools/visuals/metrics_app.py:185-195 | the source's check fails with `ValueError` exactly when the concatenated `model + str(fold)` key (each part written as its column's dtype writes it), or the renamed model without folds, repeats; on success it returns the renamed table |
| Validation.PairsRepeatIff | rectools/visuals/metrics_app.py:189-190 | the pair key `(renamed model, fold)` repeats exactly when two rows share the renamed model and, with folds, the fold |
| Validation.NamesCheck | rectools/visuals/metrics_app.py:185-195 | the corrected check fails with `ValueError` exactly when a (model, fold) pair, or a model without folds, repeats; on success it returns the renamed table |
| Validation.DuplicatePairRejected | rectools/visuals/metrics_app.py:185-195 | two rows with the same model and fold are rejected by both the as-written and the corrected check |
| Validation.RepeatedPairsRepeatConcatKeys | rectools/visuals/metrics_app.py:187-191 | a repeated (renamed model, fold) pair always gives a repeated concatenated key, so the source's check rejects everything the corrected one rejects |
| Validation.MetaCheck | rectools/visuals/metrics_app.py:198-206 | passes exactly when the model column exists and its cells are unique and present; a missing column gives `KeyError`, anything else `ValueError` |
| Validation.MetaMissingModelUnreported | rectools/visuals/metrics_app.py:203-206 | the NaN-model error is never the one raised: a NaN model cell is reported as non-unique |
| Validation.FloatFoldKeys | rectools/visuals/metrics_app.py:187-191 | with folds 11 and 1.0 the fold column is float64, so "A" with 11 and "A1" with 1.0 both give the key "A11.0": the source's check rejects the table and the corrected check accepts it |
| Validation.ConcatKeyCollision | rectools/visuals/metrics_app.py:187-191 | a table whose (model, fold) pairs are unique passes the base and fold checks, is accepted by the corrected name check and rejected by the source's check |
| Construction.DefaultMetadata | rectools/visuals/metrics_app.py:130-131 | the synthesised metadata has only the model column, holding the distinct model names in order of first appearance |
| Construction.DefaultMetadataPasses | rectools/visuals/metrics_app.py:130-134 | the synthesised metadata always passes the metadata check, contributes no metadata column, and, built from string model names, always merges |
| Construction.Construct | rectools/visuals/metrics_app.py:127-140 | `construct` with `auto_display=False`: succeeds exactly when the base, fold and metadata checks pass, no concatenated `model + str(fold)` key repeats (the source's name check), and the merge accepts the metadata's key type; then `metric_names` is the columns other than Model and Split in order (at least one), `meta_names` is the metadata columns other than Model (empty without metadata), and `show_legend` is kept |
| Construction.ConstructReportsFirstFailure | rectools/visuals/metrics_app.py:127-134 | the checks run in order and the first failing one's error is raised: base, folds, the concatenated-key name check, metadata, then `ValueError` from the merge when the metadata's model column is numeric |
| Construction.ConstructIntended | rectools/visuals/metrics_app.py:127-140 | `construct` with the corrected name check succeeds exactly when the base, fold and metadata checks pass, no (model, fold) pair repeats, and the merge accepts the metadata's key type |
| Construction.IntendedExtendsConstruct | rectools/visuals/metrics_app.py:127-140 | the corrected construction accepts every table the source's accepts and builds the same widget; any table only it accepts has a repeated concatenated key, which the source rejects with `ValueError` |
| Construction.CollisionConstruct | rectools/visuals/metrics_app.py:187-191 | on the collision table the source's `construct` raises `ValueError` and the corrected one succeeds |
| Construction.MergedModelsNormalized | rectools/visuals/metrics_app.py:134-135 | the rename after the merge finds nothing left to rename |
| Construction.ConstructData | rectools/visuals/metrics_app.py:127-135 | the widget's table is the renamed metrics left-merged with the metadata in use, whose model names are unique |
| Construction.ConstructWithoutMetadata | rectools/visuals/metrics_app.py:130-135 | without metadata the widget's table is the renamed metrics table itself |
| Construction.ConstructRows | rectools/visuals/metrics_app.py:134-138 | the widget's table has one row per metrics row with the renamed model, every metrics cell unchanged, and its model's metadata on the metadata columns |
| Construction.ConsistentColumns | rectools/visuals/metrics_app.py:137-138 | every metric name and every metadata name is a column of the widget's table, and the two lists are disjoint |
| Construction.ConsistentCells | rectools/visuals/metrics_app.py:164-165 | in the widget's table every model name is a space-free string and no metric cell is NaN |
| Construction.CheckedFolds | rectools/visuals/metrics_app.py:164-174 | a metrics table with a fold column that passed the checks has rows, each with a fold id |
| Construction.ConsistentFolds | rectools/visuals/metrics_app.py:164-174 | with a fold column, the widget's table has rows and every fold id is present |
| Construction.ConsistentMeta | rectools/visuals/metrics_app.py:134 | two rows of the same model carry the same metadata values |
| Construction.ConstructConsistent | rectools/visuals/metrics_app.py:127-140 | every widget `construct` returns satisfies all the invariants the views rely on |
| Construction.ModelNames | rectools/visuals/metrics_app.py:144-146 | `model_names` is strictly increasing and holds exactly the model values; it fails exactly when strings meet non-strings |
| Construction.ModelNamesOfConsistent | rectools/visuals/metrics_app.py:144-146 | for a constructed widget, `model_names` succeeds, holds only space-free strings, and equals any strictly sorted list of the same models |
| Construction.FoldIds | rectools/visuals/metrics_app.py:150-154 | `None` without a fold column; otherwise the strictly increasing list of exactly the fold ids, or `TypeError` when strings meet non-strings |
| Construction.FoldIdsNonEmpty | rectools/visuals/metrics_app.py:150-154 | for a constructed widget with orderable fold ids, `fold_ids` is a non-empty list |
| Views.MatchingIndices | rectools/visuals/metrics_app.py:210 | the increasing positions of exactly the rows whose fold id is the requested one |
| Views.FilterFoldSelects | rectools/visuals/metrics_app.py:209-210 | the fold view's k-th row is the row at the k-th matching position: an order-preserving selection of exactly the matching rows |
| Views.FilterFoldMembers | rectools/visuals/metrics_app.py:210 | the fold view holds every row with the requested fold id, no other row, and is never longer than the table |
| Views.FoldView | rectools/visuals/metrics_app.py:209-210 | `KeyError` without a fold column; otherwise the same columns, and only rows of the table with the requested fold id |
| Views.SumBounds | rectools/visuals/metrics_app.py:217 | the sum of the numbers lies between their count times the least bound and their count times the greatest |
| Views.MeanBounds | rectools/visuals/metrics_app.py:217 | the mean of a non-empty group lies between the least and greatest value averaged |
| Views.MeanTimesCount | rectools/visuals/metrics_app.py:217 | a non-empty mean, counted once per number, adds up to the numbers' sum |
| Views.GetMeanRow | rectools/visuals/metrics_app.py:217 | each metric cell of a model's mean row is the mean of that metric over the model's rows |
| Views.MeansTableKeys | rectools/visuals/metrics_app.py:217 | the means table has one row per group, keyed by the group models in order, so its keys are unique and none is NaN |
| Views.MetaTable | rectools/visuals/metrics_app.py:218 | `drop_duplicates` of the model-and-metadata projection: those columns, no repeated row, every row's projection present, and nothing else |
| Views.AvgView | rectools/visuals/metrics_app.py:213-219 | fails only with `KeyError` for a missing column or `TypeError` for a string metric, and succeeds whenever the columns exist and the metrics are numeric |
| Views.ProjectSameModel | rectools/visuals/metrics_app.py:218 | in a constructed widget, two rows' model-and-metadata projections are equal exactly when their models are |
| Views.MetaRowsUnique | rectools/visuals/metrics_app.py:218-219 | after `drop_duplicates` the metadata projection has one row per model, so the final merge cannot duplicate rows |
| Views.MetaRowFor | rectools/visuals/metrics_app.py:218-219 | the de-duplicated metadata row a model joins with is the projection of any of that model's rows |
| Views.GroupModelsOfConsistent | rectools/visuals/metrics_app.py:217 | the groups of `groupby(sort=False)` are the distinct models in first-appearance order |
| Views.AvgViewColumns | rectools/visuals/metrics_app.py:214-219 | the average view's columns are Model, then the metrics, then the metadata names |
| Views.MergeOfMeans | rectools/visuals/metrics_app.py:217-219 | merging the mean rows with unique metadata gives one row per group key, carrying the key, the means, and the key's metadata |
| Views.AvgViewOfConsistent | rectools/visuals/metrics_app.py:213-219 | for a constructed widget with numeric metrics: one row per distinct model in first-appearance order, each metric the mean of that model's rows, and each metadata value that of any of the model's rows |
| Views.ChartData | rectools/visuals/metrics_app.py:302-305 | the average view exactly when `use_avg` is set or no fold is selected, otherwise the selected fold's view |
| Controls.ColorColumn | rectools/visuals/metrics_app.py:265 | points are coloured by the chosen metadata feature when `use_meta` is set, else by Model |
| Controls.LegendTitle | rectools/visuals/metrics_app.py:270 | the title is `"model name"` exactly when `use_meta` is off; otherwise it is the feature's text, then `", "`, then `"model name"` |
| Controls.FoldVisibility | rectools/visuals/metrics_app.py:296-297 | the fold control is hidden exactly when the average is shown |
| Controls.MetaVisibility | rectools/visuals/metrics_app.py:299-300 | the feature control is hidden exactly when metadata colouring is off |
| Controls.HiddenControlsIgnored | rectools/visuals/metrics_app.py:296-305 | a hidden fold control does not affect the chart data, and a hidden feature control affects neither the colour column nor the legend title |
| Controls.TraceKey | rectools/visuals/metrics_app.py:268-269 | `split(" ", 1)[-1]`: the whole name when it has no space, else the text after the first space |
| Controls.TraceKeyOfLabel | rectools/visuals/metrics_app.py:268-274 | a trace labelled with a space-free colour value, a space and a name keys to the name |
| Controls.TraceKeyOfModel | rectools/visuals/metrics_app.py:268-275 | in a constructed widget every model name keys to itself, with or without a colour prefix |
| Controls.SymbolMap | rectools/visuals/metrics_app.py:269 | the symbol map has at most one entry per previous trace |
| Controls.SymbolMapKeys | rectools/visuals/metrics_app.py:269 | the symbol map's keys are exactly the previous traces' keys |
| Controls.SymbolMapLast | rectools/visuals/metrics_app.py:269 | a key maps to the symbol of the last trace with that key |
| Controls.CarrySymbols | rectools/visuals/metrics_app.py:273-275 | fails with `KeyError` exactly when a new trace's key has no previous trace; otherwise every trace keeps its name and takes the symbol of its key |
| Controls.CarrySymbolsSame | rectools/visuals/metrics_app.py:267-275 | redrawing the same traces with distinct keys leaves every symbol as it was |
| Controls.PatchKey | rectools/visuals/metrics_app.py:281 | with `use_meta` the key is the trace key and a name without a space raises `IndexError`; without `use_meta` the name itself |
| Controls.DefaultFold | rectools/visuals/metrics_app.py:312-316 | without folds the value is -1 and the options are `[-1]`; an empty fold list raises `IndexError`; otherwise the value is one of the options |
| Controls.DefaultSettings | rectools/visuals/metrics_app.py:309-327 | x and y are metric names, the average is on and metadata colouring off, the fold is among the options, and a feature is preselected exactly when there are metadata names |
| Controls.DefaultSettingsOfConsistent | rectools/visuals/metrics_app.py:309-327 | for a constructed widget, x is the first metric and y the last, the fold is the least fold id or -1, and the first chart is the average view coloured by Model under the default title |
| Controls.Display | rectools/visuals/metrics_app.py:309-325 | what `display` computes before drawing succeeds exactly when the initial control values exist and the average view can be built: the first chart is always the average |
| Controls.DisplayFailures | rectools/visuals/metrics_app.py:309-325 | when every selected column exists, `display` fails only with `TypeError` (string metric, unsortable fold ids) or `IndexError` (empty fold list) |
| Controls.DisplayOfConsistent | rectools/visuals/metrics_app.py:309-325 | a consistent widget with numeric metrics and sortable fold ids displays |
| Controls.ConstructAndDisplay | rectools/visuals/metrics_app.py:55-56 | `construct` with `auto_display`: unchanged without it; with it, the widget is returned exactly when `construct` succeeds and `display` does too, and it is then the widget `construct` built |
| Controls.DisplayFailsOnlyByType | rectools/visuals/metrics_app.py:55-56 | for tables that pass every check of `construct`, the default display can add only a `TypeError` or an `IndexError` on an empty list |
| Controls.DisplaySucceeds | rectools/visuals/metrics_app.py:55-56 | tables that pass every check, with numeric metrics, sortable fold ids and non-clashing metadata columns, construct and display with the widget `construct` built |
| Controls.StringMetricNotDisplayed | rectools/visuals/metrics_app.py:213-217 | a table with a string metric column passes every check of `construct`, yet with the default `auto_display` the call fails, because the average view raises |
| Scenarios.HappyPath | tests/visuals/test_metrics_app.py:50-60 | the test table constructs, with metrics `prec@10` and `recall` and no metadata names |
| Scenarios.HappyPathData | tests/visuals/test_metrics_app.py:10-17 | the test table's widget data is the test table itself |
| Scenarios.NoMetricColumnsRejected | tests/visuals/test_metrics_app.py:62-66 | the table with only model and fold columns is rejected with `KeyError` |
| Scenarios.NoModelColumnRejected | tests/visuals/test_metrics_app.py:68-72 | the table without a model column is rejected with `KeyError` |
| Scenarios.AverageOfAlternating | rectools/visuals/metrics_app.py:213-219 | for six rows alternating between two models, the average view has two rows, in first-appearance order, each the mean of its model's three values |
| Scenarios.HappyPathAverage | tests/visuals/test_metrics_app.py:10-17 | the test table's average view has Model1 then Model2, with `prec@10` means 0.3 and 0.4 |

## Left out

- Widgets and plotly: the dropdowns, checkboxes, observers, `px.scatter`, layout updates and the batch patching of `fig_widget` are foreign UI calls. Only the decisions they are fed are modelled: the colour, title, visibility, trace-key and default-value rules.
- `lru_cache` on `model_names`, `fold_ids` and the two views: memoisation is transparent, so the views are pure functions.
- Floating point: means are exact `real` arithmetic; rounding is not modelled.
- The `isinstance` checks at lines 158-159 and 199-200: a typed model always receives a table.
- In-place mutation of the caller's table at lines 188 and 193: the rename returns a new table, and that new table is what `construct` uses afterwards.
- The literal `"i_split"` at lines 179 and 181 is treated as the fold column.
- Validation.SplitCheck: visits the models in first-appearance order and takes the first as the reference. pandas sorts the group keys, so when the check fails, the model named in the error may differ, and so may whether the reason is the fold count or the fold names. Pass or fail, and the `ValueError` kind, do not depend on the order.
- Tables.NormalizeModel: `astype(str)` of a float whose Python text is not `<int>.0` (one with a fractional part, or of magnitude at least 1e16, which Python writes with an exponent) is a fixed placeholder, because Python's shortest round-trip float text is not modelled. Two such distinct floats used as model names therefore count as the same name.
- Validation.NamesCheckAsWritten: the same placeholder stands for the text of a fold id that is a float whose Python text is not `<int>.0` (fractional, or of magnitude at least 1e16). A model with folds 0.5 and 0.25 gets the keys "A0.5" and "A0.25" in Python and is accepted, but the model gives both rows the same key and rejects the table.
- Construction.Construct: inherits that over-rejection for such float fold ids and float model names from `Validation.NamesCheckAsWritten`.
- Construction.Construct: models `construct(..., auto_display=False)`. With the default `auto_display=True`, `__init__` also runs `display` (lines 55-56), whose errors escape `construct`: that chain is `Controls.ConstructAndDisplay`.
- Controls.ConstructAndDisplay: models only the part of `display` that computes data. Errors plotly may raise while drawing the chart are not modelled.
- Tables.LeftMerge: pandas' `_x`/`_y` suffixes for clashing column names are not modelled. The lemmas about the merged table require metadata columns disjoint from the metrics and fold columns (`Construction.SeparateColumns`).
- Metadata model names are not renamed, so a metadata name containing a space does not join. Apart from the key-type check of `Tables.MergeOnModel`, joining compares model cells by equality.
- A column's pandas dtype is inferred from its cells (`Tables.FloatColumn`): all integers give int64, a float or NaN and no string give float64, any string gives object. A column built with another dtype, and boolean cells, are outside the model; this affects the key types of `Tables.MergeOnModel` and the text of `Cells.ColumnCellText`.
- pandas' equality of an integer cell with an equal float cell (`1 == 1.0`) is not modelled: they are different cells.
- NaN as a sort key and NaN group keys in `sorted(unique())`: a constructed widget has no NaN in its model or fold columns.
- `scatter_kwargs`, `show_legend` (kept only as a field), the widget size constants and the chart margin: they only configure plotly.
- Plotly's trace naming (which traces exist, and the `"<colour>, <model>"` label format): traces are parameters of the trace-key rules.

## Findings

| source | as written | input that shows it | evidently intended | confidence | as-written member | corrected member |
|---|---|---|---|---|---|---|
| rectools/visuals/metrics_app.py:187-191 | the uniqueness key is `model + str(fold)` with no separator | models "A", "A", "A1", "A1" with folds 1, 11, 1, 11: the pairs are unique but "A"+"11" and "A1"+"1" both give "A11", so the table is rejected; likewise folds 11, 1.0, 11, 1.0, where "A"+"11.0" and "A1"+"1.0" both give "A11.0" | reject only a repeated (model, fold) pair | not executed | Validation.NamesCheckAsWritten, Validation.ConcatKeyCollision, Validation.FloatFoldKeys, Construction.CollisionConstruct | Validation.NamesCheck, Construction.ConstructIntended |

=== FILE: cells.dfy ===
/** Table cells: the values a metrics or metadata table holds, their text
    form (pandas `astype(str)`) and the order Python's `sorted` puts them in. */
module Cells {

  /** One cell: a pandas integer, a float, a string, or a missing value (NaN or None). */
  datatype Cell = Int(i: int) | Num(x: real) | Str(s: string) | Missing

  predicate IsNumeric(c: Cell) {
    c.Int? || c.Num?
  }

  /** The number a numeric cell holds. */
  function Value(c: Cell): real
    requires IsNumeric(c)
  {
    if c.Int? then c.i as real else c.x
  }

  function Digit(n: nat): char
    requires n < 10
  {
    "0123456789"[n]
  }

  /** Decimal text of a natural number, without leading zeros. */
  function NatText(n: nat): string
  {
    if n < 10 then [Digit(n)] else NatText(n / 10) + [Digit(n % 10)]
  }

  /** Decimal text of an integer, as Python's `str` writes it. */
  function IntText(i: int): string
  {
    if i < 0 then "-" + NatText(-i) else NatText(i)
  }

  /** Floats from this magnitude up are written with an exponent (`1e+16`). */
  const ExponentFrom: real := 10000000000000000.0

  /** The text pandas' `astype(str)` gives a cell. An integral float below
      `ExponentFrom` in magnitude is written with `.0`; any other float (one
      with a fractional part, or one Python writes with an exponent) gets a
      fixed placeholder, since Python's shortest round-trip float text is not
      modelled. */
  function CellText(c: Cell): string
  {
    match c
    case Str(s) => s
    case Int(i) => IntText(i)
    case Num(x) =>
      if x.Floor as real == x && -ExponentFrom < x < ExponentFrom then IntText(x.Floor) + ".0" else "float"
    case Missing => "nan"
  }

  /** The text `astype(str)` gives a cell of a column pandas stores as
      float64 (`asFloat`) or otherwise. In a float64 column an integer is a
      float, so it is written like the equal float; elsewhere every cell keeps
      its own text. */
  function ColumnCellText(c: Cell, asFloat: bool): (r: string)
    ensures !(asFloat && c.Int?) ==> r == CellText(c)
    ensures asFloat && c.Int? ==> r == CellText(Num(c.i as real))
    ensures asFloat && c.Int? && -ExponentFrom < c.i as real < ExponentFrom ==> r == IntText(c.i) + ".0"
    ensures c.Str? ==> r == c.s
  {
    if asFloat && c.Int? then CellText(Num(c.i as real)) else CellText(c)
  }

  /** Python's string comparison: lexicographic on code points. */
  predicate LexLess(a: string, b: string)
    decreases |a|
  {
    if |a| == 0 then |b| > 0
    else if |b| == 0 then false
    else if a[0] != b[0] then a[0] < b[0]
    else LexLess(a[1..], b[1..])
  }

  lemma {:induction false} LexLessIrreflexive(a: string)
    ensures !LexLess(a, a)
    decreases |a|
  {
    if |a| > 0 {
      LexLessIrreflexive(a[1..]);
    }
  }

  lemma {:induction false} LexLessTransitive(a: string, b: string, c: string)
    requires LexLess(a, b) && LexLess(b, c)
    ensures LexLess(a, c)
    decreases |a|
  {
    if |a| > 0 && a[0] == b[0] && b[0] == c[0] {
      LexLessTransitive(a[1..], b[1..], c[1..]);
    }
  }

  lemma {:induction false} LexLessTotal(a: string, b: string)
    requires a != b
    ensures LexLess(a, b) || LexLess(b, a)
    decreases |a|
  {
    if |a| > 0 && |b| > 0 && a[0] == b[0] {
      assert a == [a[0]] + a[1..] && b == [b[0]] + b[1..];
      LexLessTotal(a[1..], b[1..]);
    }
  }

  /** Kinds of cell in the order `CellLess` puts them: missing, numbers, strings. */
  function Rank(c: Cell): nat
  {
    match c
    case Missing => 0
    case Int(_) => 1
    case Num(_) => 1
    case Str(_) => 2
  }

  /** The strict order used to sort distinct cells: numbers by value (an
      integer before an equal float), strings lexicographically. Python
      refuses to compare a string with a number; `Sorting.SortedDistinct`
      reports that case before this order is ever consulted. */
  predicate CellLess(a: Cell, b: Cell)
  {
    if Rank(a) != Rank(b) then Rank(a) < Rank(b)
    else if a.Str? then LexLess(a.s, b.s)
    else if IsNumeric(a) then Value(a) < Value(b) || (Value(a) == Value(b) && a.Int? && b.Num?)
    else false
  }

  lemma CellLessIrreflexive(a: Cell)
    ensures !CellLess(a, a)
  {
    if a.Str? {
      LexLessIrreflexive(a.s);
    }
  }

  lemma CellLessTransitive(a: Cell, b: Cell, c: Cell)
    requires CellLess(a, b) && CellLess(b, c)
    ensures CellLess(a, c)
  {
    if a.Str? && b.Str? && c.Str? {
      LexLessTransitive(a.s, b.s, c.s);
    }
  }

  lemma CellLessTotal(a: Cell, b: Cell)
    requires a != b
    ensures CellLess(a, b) || CellLess(b, a)
  {
    if a.Str? && b.Str? {
      LexLessTotal(a.s, b.s);
    }
  }
}

=== FILE: construction.dfy ===
/** `MetricsApp.construct` and the two sorted lists the widget exposes,
    `model_names` and `fold_ids`. */
module Construction {
  import opened Cells
  import opened Seqs
  import opened Outcomes
  import opened Tables
  import opened Validation
  import opened Sorting

  /** What a constructed widget holds apart from its UI: the merged table,
      the metric and metadata column lists and the legend flag. */
  datatype App = App(data: Table, metricNames: seq<string>, metaNames: seq<string>, showLegend: bool)

  /** `models_metrics[Model].drop_duplicates().to_frame()`: the metadata used
      when none is given, one row per model and no other column. */
  function DefaultMetadata(t: Table): (r: Table)
    ensures r.columns == [ModelColumn]
    ensures Column(r.rows, ModelColumn) == Distinct(Column(t.rows, ModelColumn))
  {
    var ms := Distinct(Column(t.rows, ModelColumn));
    Table([ModelColumn], seq(|ms|, k requires 0 <= k < |ms| => map[ModelColumn := ms[k]]))
  }

  /** The synthesised metadata always passes the metadata check, adds no
      metadata column and, built from string model names, always merges. */
  lemma DefaultMetadataPasses(t: Table)
    requires Missing !in Column(t.rows, ModelColumn)
    ensures MetaCheck(DefaultMetadata(t)) == Pass
    ensures Without(DefaultMetadata(t).columns, {ModelColumn}) == []
    ensures (forall i :: 0 <= i < |t.rows| ==> Get(t.rows[i], ModelColumn).Str?) ==>
      forall left :: MergeOnModel(left, DefaultMetadata(t)) == Ok(LeftMerge(left, DefaultMetadata(t)))
  {
    assert Without([ModelColumn], {ModelColumn}) == [];
    var d := DefaultMetadata(t);
    if (forall i :: 0 <= i < |t.rows| ==> Get(t.rows[i], ModelColumn).Str?) && |d.rows| > 0 {
      var col := Column(t.rows, ModelColumn);
      assert Column(d.rows, ModelColumn)[0] in Distinct(col);
      var i :| 0 <= i < |col| && col[i] == Column(d.rows, ModelColumn)[0];
      assert Get(t.rows[i], ModelColumn).Str?;
      forall left: Table
        ensures MergeOnModel(left, d) == Ok(LeftMerge(left, d))
      {
        StringKeysMerge(left, d);
      }
    }
  }

  /** The metrics table, and the metadata table when there is one, pass every
      check `construct` runs, and the merge accepts the metadata's keys. The
      name check is the source's, on the concatenated key. */
  predicate Accepted(metrics: Table, metadata: Option<Table>) {
    BaseCheck(metrics) == Pass && SplitCheck(metrics) == Pass && !Repeats(ConcatKeys(metrics)) &&
    (metadata.Some? ==> MetaCheck(metadata.value) == Pass && !KeyTypesClash(metrics, metadata.value))
  }

  /** The metadata table in use: the given one, or the one synthesised from
      the renamed metrics. */
  function MetadataOf(named: Table, metadata: Option<Table>): Table {
    if metadata.Some? then metadata.value else DefaultMetadata(named)
  }

  /** What `construct` does once the name check has renamed the models: pick
      the metadata, check it, merge and rename the merged model column. */
  function Assemble(named: Table, metadata: Option<Table>, showLegend: bool): (r: Result<App>)
    requires Missing !in Column(named.rows, ModelColumn)
    requires forall i :: 0 <= i < |named.rows| ==> Get(named.rows[i], ModelColumn).Str?
    ensures r.Ok? <==> (metadata.Some? ==> MetaCheck(metadata.value) == Pass && !KeyTypesClash(named, metadata.value))
    ensures metadata.Some? && MetaCheck(metadata.value).Fail? ==> r == Err(MetaCheck(metadata.value).error)
    ensures metadata.Some? && MetaCheck(metadata.value) == Pass && KeyTypesClash(named, metadata.value) ==>
      r == Err(ValueError(MergeKeyTypes))
    ensures r.Ok? ==> r.value.data == ReplaceModelSpaces(LeftMerge(named, MetadataOf(named, metadata)))
    ensures r.Ok? ==> r.value.metricNames == MetricColumns(named.columns) && r.value.showLegend == showLegend
    ensures r.Ok? && metadata.None? ==> r.value.metaNames == []
    ensures r.Ok? && metadata.Some? ==> r.value.metaNames == Without(metadata.value.columns, {ModelColumn})
  {
    DefaultMetadataPasses(named);
    var meta := MetadataOf(named, metadata);
    match MetaCheck(meta)
    case Fail(e) => Err(e)
    case Pass =>
      var joined :- MergeOnModel(named, meta);
      Ok(App(ReplaceModelSpaces(joined), MetricColumns(named.columns), Without(meta.columns, {ModelColumn}), showLegend))
  }

  /** `construct`: the checks in the source's order, with the renamed metrics
      table the name check hands on. */
  function Construct(metrics: Table, metadata: Option<Table>, showLegend: bool): (r: Result<App>)
    ensures r.Ok? <==> Accepted(metrics, metadata)
    ensures r.Ok? ==> r.value.metricNames == MetricColumns(metrics.columns) && |r.value.metricNames| >= 1
    ensures r.Ok? && metadata.None? ==> r.value.metaNames == []
    ensures r.Ok? && metadata.Some? ==> r.value.metaNames == Without(metadata.value.columns, {ModelColumn})
    ensures r.Ok? ==> r.value.showLegend == showLegend
  {
    match BaseCheck(metrics)
    case Fail(e) => Err(e)
    case Pass =>
      match SplitCheck(metrics)
      case Fail(e) => Err(e)
      case Pass =>
        var named :- NamesCheckAsWritten(metrics);
        assert Missing !in Column(named.rows, ModelColumn);
        assert |MetricColumns(named.columns)| >= 1 by {
          var c :| c in metrics.columns && c != ModelColumn && c != SplitColumn;
          assert c in MetricColumns(named.columns);
        }
        Assemble(named, metadata, showLegend)
  }

  /** A failed construction reports the first check that failed. */
  lemma ConstructReportsFirstFailure(metrics: Table, metadata: Option<Table>, showLegend: bool)
    ensures var r := Construct(metrics, metadata, showLegend);
      && (BaseCheck(metrics).Fail? ==> r == Err(BaseCheck(metrics).error))
      && (BaseCheck(metrics) == Pass && SplitCheck(metrics).Fail? ==> r == Err(SplitCheck(metrics).error))
      && (BaseCheck(metrics) == Pass && SplitCheck(metrics) == Pass && Repeats(ConcatKeys(metrics)) ==>
            r == Err(ValueError(DuplicateModelNames)))
      && ((BaseCheck(metrics) == Pass && SplitCheck(metrics) == Pass && !Repeats(ConcatKeys(metrics)) &&
           metadata.Some? && MetaCheck(metadata.value).Fail?) ==> r == Err(MetaCheck(metadata.value).error))
      && ((BaseCheck(metrics) == Pass && SplitCheck(metrics) == Pass && !Repeats(ConcatKeys(metrics)) &&
           metadata.Some? && MetaCheck(metadata.value) == Pass && KeyTypesClash(metrics, metadata.value)) ==>
            r == Err(ValueError(MergeKeyTypes)))
  {
  }

  /** What `construct` accepts once its name check compares (model, fold)
      pairs instead of concatenated keys. */
  predicate AcceptedIntended(metrics: Table, metadata: Option<Table>) {
    BaseCheck(metrics) == Pass && SplitCheck(metrics) == Pass && !PairsRepeat(metrics) &&
    (metadata.Some? ==> MetaCheck(metadata.value) == Pass && !KeyTypesClash(metrics, metadata.value))
  }

  /** `construct` with the corrected name check. */
  function ConstructIntended(metrics: Table, metadata: Option<Table>, showLegend: bool): (r: Result<App>)
    ensures r.Ok? <==> AcceptedIntended(metrics, metadata)
    ensures r.Err? && BaseCheck(metrics) == Pass && SplitCheck(metrics) == Pass && PairsRepeat(metrics) ==>
      r.error == ValueError(DuplicateModelNames)
  {
    match BaseCheck(metrics)
    case Fail(e) => Err(e)
    case Pass =>
      match SplitCheck(metrics)
      case Fail(e) => Err(e)
      case Pass =>
        var named :- NamesCheck(metrics);
        assert Missing !in Column(named.rows, ModelColumn);
        Assemble(named, metadata, showLegend)
  }

  /** The corrected construction accepts everything the source's does, and
      builds the same widget from it; beyond that it accepts exactly the
      tables whose only fault is a concatenated-key collision. */
  lemma IntendedExtendsConstruct(metrics: Table, metadata: Option<Table>, showLegend: bool)
    ensures Accepted(metrics, metadata) ==> (AcceptedIntended(metrics, metadata) &&
      ConstructIntended(metrics, metadata, showLegend) == Construct(metrics, metadata, showLegend))
    ensures AcceptedIntended(metrics, metadata) && !Accepted(metrics, metadata) ==>
      (Repeats(ConcatKeys(metrics)) && Construct(metrics, metadata, showLegend) == Err(ValueError(DuplicateModelNames)))
  {
    if PairsRepeat(metrics) {
      RepeatedPairsRepeatConcatKeys(metrics);
    }
  }

  /** On the collision table the source's construction fails and the
      corrected one succeeds. */
  lemma CollisionConstruct(showLegend: bool)
    ensures Construct(CollisionExample(), None, showLegend) == Err(ValueError(DuplicateModelNames))
    ensures ConstructIntended(CollisionExample(), None, showLegend).Ok?
  {
    ConcatKeyCollision();
  }

  /** The metadata `construct` merges: the given table, or the synthesised one. */
  function MetadataUsed(metrics: Table, metadata: Option<Table>): Table {
    MetadataOf(NormalizeModels(metrics), metadata)
  }

  /** The rename of the merged model column finds nothing left to rename:
      the model cells come from the already renamed metrics rows. */
  lemma MergedModelsNormalized(metrics: Table, meta: Table)
    requires ModelColumn in metrics.columns
    requires NoDup(Column(meta.rows, ModelColumn))
    ensures ReplaceModelSpaces(LeftMerge(NormalizeModels(metrics), meta)) == LeftMerge(NormalizeModels(metrics), meta)
  {
    var named := NormalizeModels(metrics);
    var joined := LeftMerge(named, meta);
    LeftMergeUnique(named.rows, meta.rows, Without(meta.columns, set c | c in named.columns));
    assert |joined.rows| == |named.rows|;
    assert ModelsNormalized(joined.rows) by {
      forall i | 0 <= i < |joined.rows|
        ensures Get(joined.rows[i], ModelColumn) == Get(named.rows[i], ModelColumn)
      {
        LeftMergeCell(named, meta, i, ModelColumn);
      }
    }
    ReplaceModelSpacesNoop(joined);
  }

  /** The metadata a successful construction merges has unique models. */
  lemma MetadataUsedUnique(metrics: Table, metadata: Option<Table>, showLegend: bool)
    requires Accepted(metrics, metadata)
    ensures NoDup(Column(MetadataUsed(metrics, metadata).rows, ModelColumn))
    ensures BaseCheck(metrics) == Pass && SplitCheck(metrics) == Pass
  {
    var named := NormalizeModels(metrics);
    assert Missing !in Column(named.rows, ModelColumn);
    DefaultMetadataPasses(named);
  }

  /** A successful construction merges the renamed metrics with unique
      metadata; the second rename of the merged model column changes nothing. */
  lemma ConstructData(metrics: Table, metadata: Option<Table>, showLegend: bool)
    requires Accepted(metrics, metadata)
    ensures Construct(metrics, metadata, showLegend).value.data ==
      LeftMerge(NormalizeModels(metrics), MetadataUsed(metrics, metadata))
    ensures NoDup(Column(MetadataUsed(metrics, metadata).rows, ModelColumn))
    ensures BaseCheck(metrics) == Pass && SplitCheck(metrics) == Pass
  {
    MetadataUsedUnique(metrics, metadata, showLegend);
    MergedModelsNormalized(metrics, MetadataUsed(metrics, metadata));
  }

  /** Without metadata the synthesised table adds no column, so the widget's
      table is the renamed metrics table itself. */
  lemma ConstructWithoutMetadata(metrics: Table, showLegend: bool)
    requires Accepted(metrics, None)
    ensures Construct(metrics, None, showLegend).value.data == NormalizeModels(metrics)
  {
    ConstructData(metrics, None, showLegend);
    MergeNothingNew(NormalizeModels(metrics), DefaultMetadata(NormalizeModels(metrics)));
  }

  /** The merged table: one row per metrics row, in order, carrying the
      renamed model name, every metrics cell unchanged, and the metadata of
      its model (NaN when the metadata has no row for it). */
  lemma ConstructRows(metrics: Table, metadata: Option<Table>, showLegend: bool)
    requires Accepted(metrics, metadata)
    ensures var app := Construct(metrics, metadata, showLegend).value;
      var meta := MetadataUsed(metrics, metadata);
      && |app.data.rows| == |metrics.rows|
      && app.data.columns == metrics.columns + Without(meta.columns, set c | c in metrics.columns)
      && (forall i :: 0 <= i < |metrics.rows| ==>
            Get(app.data.rows[i], ModelColumn) == ModelName(metrics, i))
      && (forall i, c :: 0 <= i < |metrics.rows| && c in metrics.columns && c != ModelColumn ==>
            Get(app.data.rows[i], c) == Get(metrics.rows[i], c))
      && (forall i, c :: 0 <= i < |metrics.rows| && c in meta.columns && c !in metrics.columns ==>
            Get(app.data.rows[i], c) == Get(RowFor(meta.rows, Get(app.data.rows[i], ModelColumn)), c))
  {
    ConstructData(metrics, metadata, showLegend);
    MergeOfRenamed(metrics, MetadataUsed(metrics, metadata));
  }

  /** The left merge of the renamed metrics with unique metadata, cell by cell. */
  lemma MergeOfRenamed(metrics: Table, meta: Table)
    requires ModelColumn in metrics.columns
    requires NoDup(Column(meta.rows, ModelColumn))
    ensures var d := LeftMerge(NormalizeModels(metrics), meta);
      && |d.rows| == |metrics.rows|
      && d.columns == metrics.columns + Without(meta.columns, set c | c in metrics.columns)
      && (forall i :: 0 <= i < |metrics.rows| ==>
            Get(d.rows[i], ModelColumn) == ModelName(metrics, i))
      && (forall i, c :: 0 <= i < |metrics.rows| && c in metrics.columns && c != ModelColumn ==>
            Get(d.rows[i], c) == Get(metrics.rows[i], c))
      && (forall i, c :: 0 <= i < |metrics.rows| && c in meta.columns && c !in metrics.columns ==>
            Get(d.rows[i], c) == Get(RowFor(meta.rows, Get(d.rows[i], ModelColumn)), c))
  {
    var named := NormalizeModels(metrics);
    var d := LeftMerge(named, meta);
    LeftMergeUnique(named.rows, meta.rows, Without(meta.columns, set c | c in named.columns));
    forall i, c | 0 <= i < |metrics.rows|
      ensures Get(d.rows[i], c) == if c in meta.columns && c !in metrics.columns
        then Get(RowFor(meta.rows, Get(named.rows[i], ModelColumn)), c) else Get(named.rows[i], c)
    {
      LeftMergeCell(named, meta, i, c);
    }
    forall i | 0 <= i < |metrics.rows|
      ensures Get(d.rows[i], ModelColumn) == Get(named.rows[i], ModelColumn)
    {
      LeftMergeCell(named, meta, i, ModelColumn);
    }
  }

  /** What the views rely on in a constructed widget. */
  predicate Consistent(app: App) {
    var d := app.data;
    && ModelColumn in d.columns
    && (forall c :: c in app.metricNames ==> c in d.columns && c != ModelColumn && c != SplitColumn)
    && (forall c :: c in app.metaNames ==> c in d.columns && c != ModelColumn && c !in app.metricNames)
    && ModelsNormalized(d.rows)
    && (forall i, c :: 0 <= i < |d.rows| && c in app.metricNames ==> Get(d.rows[i], c) != Missing)
    && (SplitColumn in d.columns ==> |d.rows| > 0)
    && (SplitColumn in d.columns ==> forall i :: 0 <= i < |d.rows| ==> Get(d.rows[i], SplitColumn) != Missing)
    && (forall i, j, c :: (0 <= i < |d.rows| && 0 <= j < |d.rows| && c in app.metaNames &&
          Get(d.rows[i], ModelColumn) == Get(d.rows[j], ModelColumn)) ==> Get(d.rows[i], c) == Get(d.rows[j], c))
  }

  /** A metadata table whose own columns are neither metrics columns nor the
      fold column (pandas would rename clashing columns with suffixes). */
  predicate SeparateColumns(metrics: Table, metadata: Option<Table>) {
    metadata.Some? ==> forall c :: c in metadata.value.columns && c != ModelColumn ==>
      c !in metrics.columns && c != SplitColumn
  }

  lemma ConsistentColumns(metrics: Table, metadata: Option<Table>, showLegend: bool)
    requires Accepted(metrics, metadata)
    requires SeparateColumns(metrics, metadata)
    ensures var app := Construct(metrics, metadata, showLegend).value;
      && ModelColumn in app.data.columns
      && (forall c :: c in app.metricNames ==> c in app.data.columns && c != ModelColumn && c != SplitColumn)
      && (forall c :: c in app.metaNames ==> c in app.data.columns && c != ModelColumn && c !in app.metricNames)
  {
    ConstructData(metrics, metadata, showLegend);
    ConstructRows(metrics, metadata, showLegend);
  }

  lemma ConsistentCells(metrics: Table, metadata: Option<Table>, showLegend: bool)
    requires Accepted(metrics, metadata)
    ensures var d := Construct(metrics, metadata, showLegend).value.data;
      var app := Construct(metrics, metadata, showLegend).value;
      && ModelsNormalized(d.rows)
      && (forall i, c :: 0 <= i < |d.rows| && c in app.metricNames ==> Get(d.rows[i], c) != Missing)
  {
    ConstructData(metrics, metadata, showLegend);
    ConstructRows(metrics, metadata, showLegend);
    assert !HasMissing(metrics);
  }

  /** A metrics table that passed both checks and has a fold column has rows,
      each with a fold id. */
  lemma CheckedFolds(metrics: Table)
    requires BaseCheck(metrics) == Pass && SplitCheck(metrics) == Pass
    requires SplitColumn in metrics.columns
    ensures |metrics.rows| > 0
    ensures forall i :: 0 <= i < |metrics.rows| ==> Get(metrics.rows[i], SplitColumn) != Missing
  {
    assert |GroupKeys(metrics)| > 0;
    assert GroupKeys(metrics)[0] in Column(metrics.rows, ModelColumn);
    assert !HasMissing(metrics);
  }

  lemma ConsistentFolds(metrics: Table, metadata: Option<Table>, showLegend: bool)
    requires Accepted(metrics, metadata)
    requires SeparateColumns(metrics, metadata)
    ensures var d := Construct(metrics, metadata, showLegend).value.data;
      && (SplitColumn in d.columns ==> |d.rows| > 0)
      && (SplitColumn in d.columns ==> forall i :: 0 <= i < |d.rows| ==> Get(d.rows[i], SplitColumn) != Missing)
  {
    var d := Construct(metrics, metadata, showLegend).value.data;
    var meta := MetadataUsed(metrics, metadata);
    ConstructData(metrics, metadata, showLegend);
    ConstructRows(metrics, metadata, showLegend);
    if SplitColumn in d.columns {
      assert SplitColumn in metrics.columns;
      CheckedFolds(metrics);
      forall i | 0 <= i < |d.rows|
        ensures Get(d.rows[i], SplitColumn) != Missing
      {
        assert Get(d.rows[i], SplitColumn) == Get(metrics.rows[i], SplitColumn);
      }
    }
  }

  lemma ConsistentMeta(metrics: Table, metadata: Option<Table>, showLegend: bool)
    requires Accepted(metrics, metadata)
    requires SeparateColumns(metrics, metadata)
    ensures var app := Construct(metrics, metadata, showLegend).value;
      var d := app.data;
      forall i, j, c :: (0 <= i < |d.rows| && 0 <= j < |d.rows| && c in app.metaNames &&
        Get(d.rows[i], ModelColumn) == Get(d.rows[j], ModelColumn)) ==> Get(d.rows[i], c) == Get(d.rows[j], c)
  {
    var app := Construct(metrics, metadata, showLegend).value;
    ConstructRows(metrics, metadata, showLegend);
    forall c | c in app.metaNames
      ensures c in MetadataUsed(metrics, metadata).columns && c !in metrics.columns
    {
    }
  }

  /** Every constructed widget is consistent: normalised model names, no NaN
      in the metrics, at least one row when there are folds, and metadata
      that depends on the model alone. */
  lemma ConstructConsistent(metrics: Table, metadata: Option<Table>, showLegend: bool)
    requires Accepted(metrics, metadata)
    requires SeparateColumns(metrics, metadata)
    ensures Consistent(Construct(metrics, metadata, showLegend).value)
  {
    ConsistentColumns(metrics, metadata, showLegend);
    ConsistentCells(metrics, metadata, showLegend);
    ConsistentFolds(metrics, metadata, showLegend);
    ConsistentMeta(metrics, metadata, showLegend);
  }

  /** `model_names`: the distinct model names in increasing order. */
  function ModelNames(app: App): (r: Result<seq<Cell>>)
    ensures r.Ok? ==> (StrictlySorted(r.value) &&
      forall m :: m in r.value <==> m in Column(app.data.rows, ModelColumn))
    ensures r.Err? <==> MixesStringsAndOthers(Column(app.data.rows, ModelColumn))
  {
    SortedDistinct(Column(app.data.rows, ModelColumn))
  }

  /** `fold_ids`: the distinct fold ids in increasing order, or `None`
      without a fold column. */
  function FoldIds(app: App): (r: Result<Option<seq<Cell>>>)
    ensures SplitColumn !in app.data.columns ==> r == Ok(None)
    ensures SplitColumn in app.data.columns && r.Ok? ==> (r.value.Some? && StrictlySorted(r.value.value) &&
      forall f :: f in r.value.value <==> f in Column(app.data.rows, SplitColumn))
    ensures SplitColumn in app.data.columns ==>
      (r.Err? <==> MixesStringsAndOthers(Column(app.data.rows, SplitColumn)))
  {
    if SplitColumn !in app.data.columns then Ok(None)
    else
      var ids :- SortedDistinct(Column(app.data.rows, SplitColumn));
      Ok(Some(ids))
  }

  /** In a consistent widget the model names are all strings without spaces
      and can always be sorted; the list is the only strictly increasing
      enumeration of the models. */
  lemma ModelNamesOfConsistent(app: App, other: seq<Cell>)
    requires Consistent(app)
    requires StrictlySorted(other) && forall m :: m in other <==> m in Column(app.data.rows, ModelColumn)
    ensures ModelNames(app).Ok?
    ensures forall m :: m in ModelNames(app).value ==> m.Str? && ' ' !in m.s
    ensures ModelNames(app).value == other
  {
    var col := Column(app.data.rows, ModelColumn);
    assert !MixesStringsAndOthers(col);
    StrictlySortedUnique(ModelNames(app).value, other);
  }

  /** With a fold column, a consistent widget whose fold ids can be sorted
      has at least one of them, so the default fold `fold_ids[0]` exists. */
  lemma FoldIdsNonEmpty(app: App)
    requires Consistent(app)
    requires SplitColumn in app.data.columns
    requires !MixesStringsAndOthers(Column(app.data.rows, SplitColumn))
    ensures FoldIds(app).Ok? && FoldIds(app).value.Some? && |FoldIds(app).value.value| > 0
  {
    var col := Column(app.data.rows, SplitColumn);
    assert col[0] in col;
    assert col[0] in FoldIds(app).value.value;
  }
}

=== FILE: controls.dfy ===
/** The decision rules behind the widget's controls (`display`,
    `_update_chart`, `_update_fold_visibility`, `_update_meta_visibility`):
    what colours the points, the legend title, which controls are shown, the
    key that carries point symbols across redraws, and the initial values.
    The figures and widgets themselves are left out. */
module Controls {
  import opened Cells
  import opened Seqs
  import opened Outcomes
  import opened Tables
  import opened Sorting
  import opened Validation
  import opened Construction
  import opened Views

  /** `DEFAULT_LEGEND_TITLE`. */
  const DefaultLegendTitle: string := "model name"

  /** The column that colours the points: the selected metadata feature when
      colouring by metadata (the dropdown may hold `None`), the model otherwise. */
  function ColorColumn(useMeta: bool, feature: Option<string>): (r: Option<string>)
    ensures r == Some(ModelColumn) || r == feature
    ensures !useMeta ==> r == Some(ModelColumn)
    ensures useMeta ==> r == feature
  {
    if useMeta then feature else Some(ModelColumn)
  }

  /** How an f-string renders the dropdown value. */
  function FeatureText(feature: Option<string>): string {
    if feature.Some? then feature.value else "None"
  }

  /** The legend title: the feature and the default title when colouring by
      metadata, the default title alone otherwise. */
  function LegendTitle(useMeta: bool, feature: Option<string>): (r: string)
    ensures r == DefaultLegendTitle <==> !useMeta
    ensures useMeta ==> (|r| == |FeatureText(feature)| + 2 + |DefaultLegendTitle| &&
      r[..|FeatureText(feature)|] == FeatureText(feature) &&
      r[|FeatureText(feature)|..] == ", " + DefaultLegendTitle)
  {
    if useMeta then FeatureText(feature) + ", " + DefaultLegendTitle else DefaultLegendTitle
  }

  /** `layout.visibility` of a control. */
  datatype Visibility = Visible | Hidden

  /** The fold dropdown is hidden while folds are averaged. */
  function FoldVisibility(useAvg: bool): (r: Visibility)
    ensures r == Hidden <==> useAvg
  {
    if useAvg then Hidden else Visible
  }

  /** The feature dropdown is shown only while colouring by metadata. */
  function MetaVisibility(useMeta: bool): (r: Visibility)
    ensures r == Hidden <==> !useMeta
  {
    if !useMeta then Hidden else Visible
  }

  /** A hidden control has no effect: with the fold dropdown hidden the
      chart is the average view whatever fold it holds, and with the feature
      dropdown hidden the points are coloured by model under the default
      title. A shown fold dropdown holding a fold selects the fold view. */
  lemma HiddenControlsIgnored(app: App, useAvg: bool, fold: Option<Cell>, useMeta: bool, feature: Option<string>)
    ensures FoldVisibility(useAvg) == Hidden ==> ChartData(app, useAvg, fold) == AvgView(app)
    ensures FoldVisibility(useAvg) == Visible && fold.Some? ==> ChartData(app, useAvg, fold) == FoldView(app.data, fold.value)
    ensures MetaVisibility(useMeta) == Hidden ==>
      ColorColumn(useMeta, feature) == Some(ModelColumn) && LegendTitle(useMeta, feature) == DefaultLegendTitle
  {
  }

  /** `name.split(" ", 1)[-1]`: the text after the first space, or the whole
      name when it has none. Trace names are "<colour>, <model>", so the key
      is the model part. */
  function TraceKey(name: string): (r: string)
    ensures ' ' !in name ==> r == name
    ensures ' ' in name ==> (|r| < |name| &&
      var k := |name| - |r| - 1;
      name[k] == ' ' && ' ' !in name[..k] && name[k + 1..] == r)
  {
    if ' ' in name then name[FirstIndex(name, ' ') + 1..] else name
  }

  /** The key of "<colour> <name>" is the name when the colour part has no
      space; the key of a name without spaces is the name itself. */
  lemma TraceKeyOfLabel(colour: string, name: string)
    requires ' ' !in colour
    ensures TraceKey(colour + " " + name) == name
  {
    var s := colour + " " + name;
    assert s[..|colour|] == colour;
    FirstIndexAt(s, ' ', |colour|);
    assert s[|colour| + 1..] == name;
  }

  /** Normalised model names have no space, so a trace coloured by anything
      without a space is keyed by its model name. */
  lemma TraceKeyOfModel(app: App, i: int, colour: string)
    requires Consistent(app) && 0 <= i < |app.data.rows|
    requires ' ' !in colour
    ensures var m := Get(app.data.rows[i], ModelColumn);
      m.Str? && TraceKey(m.s) == m.s && TraceKey(colour + " " + m.s) == m.s
  {
    TraceKeyOfLabel(colour, Get(app.data.rows[i], ModelColumn).s);
  }

  /** A trace of the figure: its name and its marker symbol. */
  datatype Trace = Trace(name: string, symbol: string)

  /** `{key(trace.name): trace.marker.symbol for trace in traces}`: later
      traces overwrite earlier ones of the same key. */
  function SymbolMap(traces: seq<Trace>): (r: map<string, string>)
    ensures |r| <= |traces|
  {
    if |traces| == 0 then map[]
    else
      var t := traces[|traces| - 1];
      SymbolMap(traces[..|traces| - 1])[TraceKey(t.name) := t.symbol]
  }

  /** The map's keys are exactly the traces' keys. */
  lemma {:induction false} SymbolMapKeys(traces: seq<Trace>, key: string)
    ensures key in SymbolMap(traces) <==> exists i :: 0 <= i < |traces| && TraceKey(traces[i].name) == key
    decreases |traces|
  {
    if |traces| > 0 {
      var p := traces[..|traces| - 1];
      SymbolMapKeys(p, key);
      if key in SymbolMap(p) {
        var i :| 0 <= i < |p| && TraceKey(p[i].name) == key;
        assert traces[i] == p[i];
      }
      if exists i :: 0 <= i < |traces| && TraceKey(traces[i].name) == key {
        var i :| 0 <= i < |traces| && TraceKey(traces[i].name) == key;
        if i < |p| {
          assert traces[i] == p[i];
        }
      }
    }
  }

  /** A trace no later trace shares its key with gives that key its symbol. */
  lemma {:induction false} SymbolMapLast(traces: seq<Trace>, i: nat)
    requires i < |traces|
    requires forall j :: i < j < |traces| ==> TraceKey(traces[j].name) != TraceKey(traces[i].name)
    ensures TraceKey(traces[i].name) in SymbolMap(traces)
    ensures SymbolMap(traces)[TraceKey(traces[i].name)] == traces[i].symbol
    decreases |traces|
  {
    if i < |traces| - 1 {
      var p := traces[..|traces| - 1];
      assert p[i] == traces[i];
      assert forall j :: i < j < |p| ==> p[j] == traces[j];
      SymbolMapLast(p, i);
    }
  }

  /** The redraw step that gives every new trace the symbol the previous
      figure used for the same key; a key the previous figure lacked raises
      `KeyError`. */
  function CarrySymbols(previous: seq<Trace>, current: seq<Trace>): (r: Result<seq<Trace>>)
    ensures r.Ok? <==> forall j :: 0 <= j < |current| ==> TraceKey(current[j].name) in SymbolMap(previous)
    ensures r.Err? ==> r.error == KeyError(MissingTraceKey)
    ensures r.Ok? ==> |r.value| == |current| && forall j :: 0 <= j < |current| ==>
      r.value[j].name == current[j].name && r.value[j].symbol == SymbolMap(previous)[TraceKey(current[j].name)]
  {
    var m := SymbolMap(previous);
    if exists j :: 0 <= j < |current| && TraceKey(current[j].name) !in m then Err(KeyError(MissingTraceKey))
    else Ok(seq(|current|, j requires 0 <= j < |current| => Trace(current[j].name, m[TraceKey(current[j].name)])))
  }

  /** No two traces share a key. */
  predicate DistinctKeys(traces: seq<Trace>) {
    forall i, j :: 0 <= i < j < |traces| ==> TraceKey(traces[i].name) != TraceKey(traces[j].name)
  }

  /** Redrawing the same traces keeps every symbol: with distinct keys the
      carried symbols are the traces' own. */
  lemma CarrySymbolsSame(traces: seq<Trace>)
    requires DistinctKeys(traces)
    ensures CarrySymbols(traces, traces) == Ok(traces)
  {
    var m := SymbolMap(traces);
    forall j | 0 <= j < |traces|
      ensures TraceKey(traces[j].name) in m && m[TraceKey(traces[j].name)] == traces[j].symbol
    {
      SymbolMapLast(traces, j);
    }
    assert !exists j :: 0 <= j < |traces| && TraceKey(traces[j].name) !in m;
    var carried := seq(|traces|, j requires 0 <= j < |traces| => Trace(traces[j].name, m[TraceKey(traces[j].name)]));
    assert CarrySymbols(traces, traces) == Ok(carried);
    assert carried == traces;
  }

  /** The key the in-place patch looks a trace up by: with metadata colouring
      the text after the first space (`split(" ", 1)[1]`, which raises
      `IndexError` on a name without a space), otherwise the whole name. */
  function PatchKey(useMeta: bool, name: string): (r: Result<string>)
    ensures !useMeta ==> r == Ok(name)
    ensures useMeta ==> (r.Err? <==> ' ' !in name)
    ensures r.Err? ==> r.error == IndexError(NoSpaceInTraceName)
    ensures r.Ok? ==> r.value == TraceKey(name) || !useMeta
  {
    if !useMeta then Ok(name)
    else if ' ' in name then Ok(TraceKey(name))
    else Err(IndexError(NoSpaceInTraceName))
  }

  /** The initial state of the controls `display` builds. */
  datatype Settings = Settings(
    metricX: string, metricY: string, useAvg: bool,
    fold: Cell, foldOptions: seq<Cell>,
    useMeta: bool, feature: Option<string>)

  /** The first fold id, or -1 without a fold column. */
  function DefaultFold(ids: Option<seq<Cell>>): (r: Result<(Cell, seq<Cell>)>)
    ensures ids.None? ==> r == Ok((Int(-1), [Int(-1)]))
    ensures ids.Some? ==> (r.Err? <==> |ids.value| == 0)
    ensures r.Err? ==> r.error == IndexError(EmptyList)
    ensures r.Ok? ==> r.value.0 in r.value.1
  {
    if ids.None? then Ok((Int(-1), [Int(-1)]))
    else if |ids.value| == 0 then Err(IndexError(EmptyList))
    else Ok((ids.value[0], ids.value))
  }

  /** The controls' initial values: x is the first metric, y the last,
      averaging on, the first fold selected, metadata colouring off, and the
      first metadata column (if any) in the feature dropdown. */
  function DefaultSettings(app: App): (r: Result<Settings>)
    ensures |app.metricNames| == 0 ==> r == Err(IndexError(EmptyList))
    ensures r.Ok? ==> r.value.metricX in app.metricNames && r.value.metricY in app.metricNames
    ensures r.Ok? ==> r.value.useAvg && !r.value.useMeta
    ensures r.Ok? ==> r.value.fold in r.value.foldOptions
    ensures r.Ok? ==> (r.value.feature.None? <==> |app.metaNames| == 0)
    ensures r.Ok? && r.value.feature.Some? ==> r.value.feature.value in app.metaNames
  {
    if |app.metricNames| == 0 then Err(IndexError(EmptyList))
    else
      var ids :- FoldIds(app);
      var fold :- DefaultFold(ids);
      Ok(Settings(
        app.metricNames[0], app.metricNames[|app.metricNames| - 1], true,
        fold.0, fold.1,
        false, if |app.metaNames| > 0 then Some(app.metaNames[0]) else None))
  }

  /** For a consistent widget whose fold ids can be sorted the defaults
      exist: x and y are the first and last metric, the fold is the least
      fold id (or -1 without folds), and the first chart is the average view
      coloured by model under the default title. */
  lemma DefaultSettingsOfConsistent(app: App)
    requires Consistent(app)
    requires |app.metricNames| > 0
    requires SplitColumn in app.data.columns ==> !MixesStringsAndOthers(Column(app.data.rows, SplitColumn))
    ensures DefaultSettings(app).Ok?
    ensures var s := DefaultSettings(app).value;
      && s.metricX == app.metricNames[0]
      && s.metricY == app.metricNames[|app.metricNames| - 1]
      && (SplitColumn !in app.data.columns ==> s.fold == Int(-1) && s.foldOptions == [Int(-1)])
      && (SplitColumn in app.data.columns ==>
            s.fold in Column(app.data.rows, SplitColumn) &&
            forall f :: f in Column(app.data.rows, SplitColumn) && f != s.fold ==> CellLess(s.fold, f))
      && ChartData(app, s.useAvg, Some(s.fold)) == AvgView(app)
      && ColorColumn(s.useMeta, s.feature) == Some(ModelColumn)
      && LegendTitle(s.useMeta, s.feature) == DefaultLegendTitle
  {
    if SplitColumn in app.data.columns {
      FoldIdsNonEmpty(app);
      var ids := FoldIds(app).value.value;
      assert ids[0] in ids;
      forall f | f in Column(app.data.rows, SplitColumn) && f != ids[0]
        ensures CellLess(ids[0], f)
      {
        assert f in ids;
        var j :| 0 <= j < |ids| && ids[j] == f;
      }
    }
  }

  /** What `display` computes before any widget is drawn: the initial
      control values (which read `fold_ids`) and the first chart's data. */
  function Display(app: App): (r: Outcome)
    ensures r == Pass <==> DefaultSettings(app).Ok? && AvgView(app).Ok?
  {
    match DefaultSettings(app)
    case Err(e) => Fail(e)
    case Ok(s) =>
      match ChartData(app, s.useAvg, Some(s.fold))
      case Err(e) => Fail(e)
      case Ok(_) => Pass
  }

  /** When every column the views select exists, displaying fails only by a
      `TypeError` (a string metric to average, or fold ids that cannot be
      sorted) or an `IndexError` (no metric, or an empty fold list). */
  lemma DisplayFailures(app: App)
    requires ModelColumn in app.data.columns
    requires forall c :: c in app.metricNames + app.metaNames ==> c in app.data.columns
    ensures Display(app).Fail? ==> Display(app).error.TypeError? || Display(app).error == IndexError(EmptyList)
  {
  }

  /** A consistent widget with numeric metrics and sortable fold ids displays. */
  lemma DisplayOfConsistent(app: App)
    requires Consistent(app) && |app.metricNames| > 0
    requires !HasString(app.data.rows, app.metricNames)
    requires SplitColumn in app.data.columns ==> !MixesStringsAndOthers(Column(app.data.rows, SplitColumn))
    ensures Display(app) == Pass
  {
    DefaultSettingsOfConsistent(app);
    assert forall c :: c in app.metricNames + app.metaNames ==> c in app.metricNames || c in app.metaNames;
  }

  /** `construct` and then, with `auto_display` set, `display`: the widget is
      returned only when displaying succeeds too. */
  function ConstructAndDisplay(metrics: Table, metadata: Option<Table>, showLegend: bool, autoDisplay: bool): (r: Result<App>)
    ensures !autoDisplay ==> r == Construct(metrics, metadata, showLegend)
    ensures r.Ok? ==> r == Construct(metrics, metadata, showLegend)
    ensures autoDisplay && Construct(metrics, metadata, showLegend).Ok? ==>
      (r.Ok? <==> Display(Construct(metrics, metadata, showLegend).value) == Pass)
  {
    var app :- Construct(metrics, metadata, showLegend);
    if !autoDisplay then Ok(app)
    else
      match Display(app)
      case Fail(e) => Err(e)
      case Pass => Ok(app)
  }

  /** Every column the views select is a column of a constructed widget. */
  lemma ConstructedColumns(metrics: Table, metadata: Option<Table>, showLegend: bool)
    requires Accepted(metrics, metadata)
    ensures var app := Construct(metrics, metadata, showLegend).value;
      ModelColumn in app.data.columns &&
      forall c :: c in app.metricNames + app.metaNames ==> c in app.data.columns
  {
    var app := Construct(metrics, metadata, showLegend).value;
    ConstructData(metrics, metadata, showLegend);
    forall c | c in app.metricNames + app.metaNames
      ensures c in app.data.columns
    {
      assert c in metrics.columns || c in MetadataUsed(metrics, metadata).columns;
    }
  }

  /** A metrics cell outside the model column is the widget's cell. */
  lemma ConstructedCell(metrics: Table, metadata: Option<Table>, showLegend: bool, i: int, c: string)
    requires Accepted(metrics, metadata)
    requires 0 <= i < |metrics.rows| && c in metrics.columns && c != ModelColumn
    ensures var d := Construct(metrics, metadata, showLegend).value.data;
      |d.rows| == |metrics.rows| && Get(d.rows[i], c) == Get(metrics.rows[i], c)
  {
    ConstructRows(metrics, metadata, showLegend);
  }

  /** Once the checks pass, displaying fails only by a `TypeError` or an
      `IndexError` on an empty list: no column the views select is missing. */
  lemma DisplayFailsOnlyByType(metrics: Table, metadata: Option<Table>, showLegend: bool)
    requires Accepted(metrics, metadata)
    ensures var r := ConstructAndDisplay(metrics, metadata, showLegend, true);
      r.Err? ==> r.error.TypeError? || r.error == IndexError(EmptyList)
  {
    ConstructedColumns(metrics, metadata, showLegend);
    DisplayFailures(Construct(metrics, metadata, showLegend).value);
  }

  /** A checked table with numeric metrics and sortable fold ids, merged with
      metadata whose columns do not clash, displays without error. */
  lemma DisplaySucceeds(metrics: Table, metadata: Option<Table>, showLegend: bool)
    requires Accepted(metrics, metadata)
    requires SeparateColumns(metrics, metadata)
    requires !HasString(metrics.rows, MetricColumns(metrics.columns))
    requires SplitColumn in metrics.columns ==> !MixesStringsAndOthers(Column(metrics.rows, SplitColumn))
    ensures ConstructAndDisplay(metrics, metadata, showLegend, true) == Construct(metrics, metadata, showLegend)
  {
    ConstructConsistent(metrics, metadata, showLegend);
    ConstructedFolds(metrics, metadata, showLegend);
    ConstructedNumeric(metrics, metadata, showLegend);
    DisplayOfConsistent(Construct(metrics, metadata, showLegend).value);
  }

  /** The widget's fold column, when it has one, is the metrics fold column. */
  lemma ConstructedFolds(metrics: Table, metadata: Option<Table>, showLegend: bool)
    requires Accepted(metrics, metadata)
    requires SeparateColumns(metrics, metadata)
    ensures var d := Construct(metrics, metadata, showLegend).value.data;
      SplitColumn in d.columns ==>
        SplitColumn in metrics.columns && Column(d.rows, SplitColumn) == Column(metrics.rows, SplitColumn)
  {
    var d := Construct(metrics, metadata, showLegend).value.data;
    ConstructData(metrics, metadata, showLegend);
    if SplitColumn in d.columns {
      assert SplitColumn in metrics.columns;
      ConstructedCell(metrics, metadata, showLegend, 0, SplitColumn);
      forall i | 0 <= i < |d.rows|
        ensures Column(d.rows, SplitColumn)[i] == Column(metrics.rows, SplitColumn)[i]
      {
        ConstructedCell(metrics, metadata, showLegend, i, SplitColumn);
      }
    }
  }

  /** Numeric metrics stay numeric in the widget. */
  lemma ConstructedNumeric(metrics: Table, metadata: Option<Table>, showLegend: bool)
    requires Accepted(metrics, metadata)
    requires !HasString(metrics.rows, MetricColumns(metrics.columns))
    ensures var app := Construct(metrics, metadata, showLegend).value;
      !HasString(app.data.rows, app.metricNames)
  {
    var app := Construct(metrics, metadata, showLegend).value;
    var d := app.data;
    forall i, c | 0 <= i < |d.rows| && c in app.metricNames
      ensures !Get(d.rows[i], c).Str?
    {
      ConstructedCell(metrics, metadata, showLegend, 0, c);
      ConstructedCell(metrics, metadata, showLegend, i, c);
    }
  }

  /** A checked table with a string metric column constructs, but displaying
      it fails: averaging the string column raises. */
  lemma StringMetricNotDisplayed(metrics: Table, metadata: Option<Table>, showLegend: bool)
    requires Accepted(metrics, metadata)
    requires HasString(metrics.rows, MetricColumns(metrics.columns))
    ensures Construct(metrics, metadata, showLegend).Ok?
    ensures ConstructAndDisplay(metrics, metadata, showLegend, true).Err?
  {
    var app := Construct(metrics, metadata, showLegend).value;
    var i, c :| 0 <= i < |metrics.rows| && c in MetricColumns(metrics.columns) && Get(metrics.rows[i], c).Str?;
    ConstructedCell(metrics, metadata, showLegend, i, c);
    StringMetricFails(app, i, c);
  }

  /** Averaging a string metric raises, so such a widget does not display. */
  lemma StringMetricFails(app: App, i: int, c: string)
    requires 0 <= i < |app.data.rows| && c in app.metricNames && Get(app.data.rows[i], c).Str?
    ensures Display(app) != Pass
  {
    assert HasString(app.data.rows, app.metricNames);
  }
}

=== FILE: outcomes.dfy ===
/** The exceptions the widget raises, and the wrappers that carry a value or
    one of those exceptions. */
module Outcomes {
  import opened Cells

  /** Which check raised, so that two errors of the same Python kind stay apart. */
  datatype Reason =
    | MissingModelColumn          // metrics table has no model column
    | NoMetricColumn              // metrics table has nothing besides model and fold
    | MissingValueInMetrics       // a NaN anywhere in the metrics table
    | FoldCount(model: Cell)      // this model has a different number of folds
    | FoldNames(model: Cell)      // this model has a different set of folds
    | DuplicateModelNames         // model (or model and fold) not unique
    | MetaMissingModelColumn      // metadata table has no model column
    | MetaNotUnique               // metadata model values not unique
    | MetaMissingModel            // a NaN in the metadata model column
    | MergeKeyTypes               // merging string model names with a numeric model column
    | MissingColumn               // a view selects a column the table lacks
    | NonNumericMean              // averaging a column that holds strings
    | UnorderableValues           // sorting strings together with numbers
    | EmptyList                   // indexing the first element of an empty list
    | MissingTraceKey             // a new trace whose key no previous trace had
    | NoSpaceInTraceName          // splitting off the colour part of a name without a space

  /** A Python exception, by kind. `StopIteration` is what `next` raises on an
      empty iterator. */
  datatype Error =
    | KeyError(why: Reason)
    | ValueError(why: Reason)
    | TypeError(why: Reason)
    | IndexError(why: Reason)
    | StopIteration

  datatype Option<+T> = None | Some(value: T)

  /** A value, or the exception that stopped its computation. */
  datatype Result<+T> = Ok(value: T) | Err(error: Error) {
    predicate IsFailure() {
      Err?
    }

    function PropagateFailure<U>(): Result<U>
      requires Err?
    {
      Err(error)
    }

    function Extract(): T
      requires Ok?
    {
      value
    }
  }

  /** The outcome of a check that returns nothing on success. */
  datatype Outcome = Pass | Fail(error: Error)
}

=== FILE: scenarios.dfy ===
/** The tables of the widget's test suite (tests/visuals/test_metrics_app.py)
    stated over the model: the happy path constructs, the two malformed
    tables raise `KeyError`, and the average view of the happy-path data. */
module Scenarios {
  import opened Cells
  import opened Seqs
  import opened Outcomes
  import opened Tables
  import opened Validation
  import opened Construction
  import opened Views

  function MetricsRow(model: string, fold: int, value: real): Row {
    map[ModelColumn := Str(model), SplitColumn := Int(fold), "prec@10" := Num(value), "recall" := Num(value)]
  }

  /** `DF_METRICS`: two models, three folds, two metrics. */
  function DfMetrics(): Table {
    Table([ModelColumn, SplitColumn, "prec@10", "recall"], [
      MetricsRow("Model1", 0, 0.1), MetricsRow("Model2", 0, 0.2),
      MetricsRow("Model1", 1, 0.3), MetricsRow("Model2", 1, 0.4),
      MetricsRow("Model1", 2, 0.5), MetricsRow("Model2", 2, 0.6)
    ])
  }

  /** `DF_METRICS_EMPTY`: model and fold columns only. */
  function DfMetricsEmpty(): Table {
    var t := DfMetrics();
    Table([ModelColumn, SplitColumn], seq(|t.rows|, i requires 0 <= i < |t.rows| => Project(t.rows[i], [ModelColumn, SplitColumn])))
  }

  /** `DF_METRICS_NO_MODEL`: no model column. */
  function DfMetricsNoModel(): Table {
    var t := DfMetrics();
    var cols := [SplitColumn, "prec@10", "recall"];
    Table(cols, seq(|t.rows|, i requires 0 <= i < |t.rows| => Project(t.rows[i], cols)))
  }

  /** A table without metric columns is rejected with `KeyError`. */
  lemma NoMetricColumnsRejected(metadata: Option<Table>, showLegend: bool)
    ensures Construct(DfMetricsEmpty(), metadata, showLegend) == Err(KeyError(NoMetricColumn))
  {
    var t := DfMetricsEmpty();
    assert !HasMetricColumn(t.columns);
  }

  /** A table without a model column is rejected with `KeyError`. */
  lemma NoModelColumnRejected(metadata: Option<Table>, showLegend: bool)
    ensures Construct(DfMetricsNoModel(), metadata, showLegend) == Err(KeyError(MissingModelColumn))
  {
    var t := DfMetricsNoModel();
    assert t.columns == [SplitColumn, "prec@10", "recall"];
    assert ModelColumn !in t.columns;
    ConstructReportsFirstFailure(t, metadata, showLegend);
  }

  lemma DfMetricsCells()
    ensures var t := DfMetrics();
      && |t.rows| == 6
      && Get(t.rows[0], ModelColumn) == Str("Model1") && Get(t.rows[1], ModelColumn) == Str("Model2")
      && Get(t.rows[2], ModelColumn) == Str("Model1") && Get(t.rows[3], ModelColumn) == Str("Model2")
      && Get(t.rows[4], ModelColumn) == Str("Model1") && Get(t.rows[5], ModelColumn) == Str("Model2")
      && Get(t.rows[0], SplitColumn) == Int(0) && Get(t.rows[1], SplitColumn) == Int(0)
      && Get(t.rows[2], SplitColumn) == Int(1) && Get(t.rows[3], SplitColumn) == Int(1)
      && Get(t.rows[4], SplitColumn) == Int(2) && Get(t.rows[5], SplitColumn) == Int(2)
      && Get(t.rows[0], "prec@10") == Num(0.1) && Get(t.rows[1], "prec@10") == Num(0.2)
      && Get(t.rows[2], "prec@10") == Num(0.3) && Get(t.rows[3], "prec@10") == Num(0.4)
      && Get(t.rows[4], "prec@10") == Num(0.5) && Get(t.rows[5], "prec@10") == Num(0.6)
  {
  }

  lemma DfMetricsBase()
    ensures BaseCheck(DfMetrics()) == Pass
  {
    var t := DfMetrics();
    assert "prec@10" in t.columns;
    assert forall i, c :: 0 <= i < |t.rows| && c in t.columns ==> Get(t.rows[i], c) != Missing;
  }

  lemma DfMetricsFolds()
    ensures SplitCheck(DfMetrics()) == Pass
  {
    DfMetricsCells();
    AlternatingFolds(DfMetrics(), Str("Model1"), Str("Model2"));
  }

  /** Six rows alternating between two models, each fold id shared by one
      consecutive pair: both models have the same folds. */
  lemma AlternatingFolds(t: Table, a: Cell, b: Cell)
    requires |t.rows| == 6 && a != Missing && b != Missing
    requires ModelColumn in t.columns && SplitColumn in t.columns
    requires Get(t.rows[0], ModelColumn) == a && Get(t.rows[1], ModelColumn) == b
    requires Get(t.rows[2], ModelColumn) == a && Get(t.rows[3], ModelColumn) == b
    requires Get(t.rows[4], ModelColumn) == a && Get(t.rows[5], ModelColumn) == b
    requires Get(t.rows[0], SplitColumn) == Get(t.rows[1], SplitColumn) != Missing
    requires Get(t.rows[2], SplitColumn) == Get(t.rows[3], SplitColumn) != Missing
    requires Get(t.rows[4], SplitColumn) == Get(t.rows[5], SplitColumn) != Missing
    ensures SplitCheck(t) == Pass
  {
    var f := {Get(t.rows[0], SplitColumn), Get(t.rows[2], SplitColumn), Get(t.rows[4], SplitColumn)};
    assert forall i :: 0 <= i < |t.rows| ==> Get(t.rows[i], SplitColumn) in f;
    assert Get(t.rows[0], SplitColumn) in FoldSet(t, a);
    assert Get(t.rows[2], SplitColumn) in FoldSet(t, a);
    assert Get(t.rows[4], SplitColumn) in FoldSet(t, a);
    assert Get(t.rows[1], SplitColumn) in FoldSet(t, b);
    assert Get(t.rows[3], SplitColumn) in FoldSet(t, b);
    assert Get(t.rows[5], SplitColumn) in FoldSet(t, b);
    assert FoldSet(t, a) == f;
    assert FoldSet(t, b) == f;
    assert forall i :: 0 <= i < |t.rows| ==> Get(t.rows[i], ModelColumn) in {a, b};
    assert SameFolds(t);
    assert a in GroupKeys(t) by {
      assert Column(t.rows, ModelColumn)[0] == a;
    }
  }

  lemma DfMetricsNames()
    ensures !Repeats(ConcatKeys(DfMetrics()))
  {
    var t := DfMetrics();
    DfMetricsCells();
    var texts := ["0", "1", "2"];
    assert IntText(0) == texts[0] && IntText(1) == texts[1] && IntText(2) == texts[2];
    assert forall i :: 0 <= i < 6 ==> Get(t.rows[i], SplitColumn).Int?;
    assert !FloatColumn(t.rows, SplitColumn);
    assert forall i :: 0 <= i < 6 ==> ColumnText(t.rows, i, SplitColumn) == texts[i / 2];
    AlternatingKeysDistinct(t, "Model1", "Model2", texts);
  }

  /** Six rows alternating between two different names of one length and
      without spaces, rows `2k` and `2k + 1` sharing the fold text `texts[k]`
      and the three texts different: no concatenated key repeats. */
  lemma AlternatingKeysDistinct(t: Table, a: string, b: string, texts: seq<string>)
    requires |t.rows| == 6 && a != b && |a| == |b| && ' ' !in a && ' ' !in b
    requires SplitColumn in t.columns
    requires forall i :: 0 <= i < 6 ==> Get(t.rows[i], ModelColumn) == Str(if i % 2 == 0 then a else b)
    requires |texts| == 3 && NoDup(texts)
    requires forall i :: 0 <= i < 6 ==> ColumnText(t.rows, i, SplitColumn) == texts[i / 2]
    ensures !Repeats(ConcatKeys(t))
  {
    var keys := ConcatKeys(t);
    forall i, j | 0 <= i < j < 6
      ensures keys[i] != keys[j]
    {
      if i % 2 == j % 2 {
        assert i / 2 != j / 2;
      }
      KeysOfDifferentParts(t, i, j);
    }
  }

  /** Two rows whose renamed names have one length get the same concatenated
      key only when both the names and the fold texts agree. */
  lemma KeysOfDifferentParts(t: Table, i: int, j: int)
    requires 0 <= i < |t.rows| && 0 <= j < |t.rows| && SplitColumn in t.columns
    requires Get(t.rows[i], ModelColumn).Str? && Get(t.rows[j], ModelColumn).Str?
    requires ' ' !in Get(t.rows[i], ModelColumn).s && ' ' !in Get(t.rows[j], ModelColumn).s
    requires |Get(t.rows[i], ModelColumn).s| == |Get(t.rows[j], ModelColumn).s|
    requires Get(t.rows[i], ModelColumn) != Get(t.rows[j], ModelColumn) ||
      ColumnText(t.rows, i, SplitColumn) != ColumnText(t.rows, j, SplitColumn)
    ensures ConcatKeys(t)[i] != ConcatKeys(t)[j]
  {
    var x, y := Get(t.rows[i], ModelColumn).s, Get(t.rows[j], ModelColumn).s;
    NormalizeNameFixed(x);
    NormalizeNameFixed(y);
    if ConcatKeys(t)[i] == ConcatKeys(t)[j] {
      ConcatSplits(x, ColumnText(t.rows, i, SplitColumn), y, ColumnText(t.rows, j, SplitColumn));
    }
  }

  /** `test_happy_path`: the test table constructs, its metrics are the two
      metric columns in order and, without metadata, there is no metadata
      column. */
  lemma HappyPath(showLegend: bool)
    ensures Construct(DfMetrics(), None, showLegend).Ok?
    ensures Construct(DfMetrics(), None, showLegend).value.metricNames == ["prec@10", "recall"]
    ensures Construct(DfMetrics(), None, showLegend).value.metaNames == []
  {
    DfMetricsBase();
    DfMetricsFolds();
    DfMetricsNames();
    DfMetricsMetricColumns();
  }

  lemma DfMetricsMetricColumns()
    ensures MetricColumns(DfMetrics().columns) == ["prec@10", "recall"]
  {
    var ex := {ModelColumn, SplitColumn};
    assert "prec@10" !in ex && "recall" !in ex;
    assert Without(["recall"], ex) == ["recall"];
    assert Without(["prec@10", "recall"], ex) == ["prec@10", "recall"];
    assert Without([SplitColumn, "prec@10", "recall"], ex) == ["prec@10", "recall"];
  }

  /** One more element of a prefix. */
  lemma DistinctPrefixStep(s: seq<Cell>, k: nat)
    requires k < |s|
    ensures Distinct(s[..k + 1]) == if s[k] in s[..k] then Distinct(s[..k]) else Distinct(s[..k]) + [s[k]]
  {
    DistinctSnoc(s[..k], s[k]);
    assert s[..k] + [s[k]] == s[..k + 1];
  }

  /** A sequence that alternates between two different cells has those two
      as its distinct elements, first one first. */
  lemma {:induction false} DistinctAlternating(s: seq<Cell>, k: nat)
    requires 2 <= k <= |s| && s[0] != s[1]
    requires forall i :: 2 <= i < |s| ==> s[i] == s[i - 2]
    ensures Distinct(s[..k]) == [s[0], s[1]]
    decreases k
  {
    if k == 2 {
      assert s[..0] == [];
      DistinctPrefixStep(s, 0);
      DistinctPrefixStep(s, 1);
    } else {
      DistinctAlternating(s, k - 1);
      DistinctPrefixStep(s, k - 1);
      assert s[k - 1] == s[..k - 1][k - 3];
    }
  }

  /** One step of `Matches` from position `k`. */
  lemma MatchesStep(rows: seq<Row>, k: nat, key: Cell)
    requires k < |rows|
    ensures Matches(rows[k..], key) ==
      (if Get(rows[k], ModelColumn) == key then [rows[k]] else []) + Matches(rows[k + 1..], key)
  {
    assert rows[k..][1..] == rows[k + 1..];
  }

  /** The rows of each of two alternating models. */
  lemma MatchesAlternating(rows: seq<Row>, a: Cell, b: Cell)
    requires |rows| == 6 && a != b
    requires Get(rows[0], ModelColumn) == a && Get(rows[1], ModelColumn) == b
    requires Get(rows[2], ModelColumn) == a && Get(rows[3], ModelColumn) == b
    requires Get(rows[4], ModelColumn) == a && Get(rows[5], ModelColumn) == b
    ensures Matches(rows, a) == [rows[0], rows[2], rows[4]]
    ensures Matches(rows, b) == [rows[1], rows[3], rows[5]]
  {
    assert rows[6..] == [];
    assert rows[0..] == rows;
    MatchesStep(rows, 5, a);
    MatchesStep(rows, 4, a);
    MatchesStep(rows, 3, a);
    MatchesStep(rows, 2, a);
    MatchesStep(rows, 1, a);
    MatchesStep(rows, 0, a);
    MatchesStep(rows, 5, b);
    MatchesStep(rows, 4, b);
    MatchesStep(rows, 3, b);
    MatchesStep(rows, 2, b);
    MatchesStep(rows, 1, b);
    MatchesStep(rows, 0, b);
  }

  lemma MeanOfThree(x: real, y: real, z: real)
    ensures MeanOf([Num(x), Num(y), Num(z)]) == Num((x + y + z) / 3.0)
  {
    var s := [Num(x), Num(y), Num(z)];
    var s1 := [Num(y), Num(z)];
    var s2 := [Num(z)];
    assert s[1..] == s1 && s1[1..] == s2 && s2[1..] == [];
    assert Count(s2) == 1 && Sum(s2) == z;
    assert Count(s1) == 2 && Sum(s1) == y + z;
    assert Count(s) == 3 && Sum(s) == x + y + z;
  }

  /** Without metadata the widget's table is the test table itself (its
      model names have no space). */
  lemma HappyPathData(showLegend: bool)
    ensures Construct(DfMetrics(), None, showLegend).Ok?
    ensures Construct(DfMetrics(), None, showLegend).value.data == DfMetrics()
  {
    HappyPath(showLegend);
    ConstructWithoutMetadata(DfMetrics(), showLegend);
    DfMetricsNormalized();
  }

  lemma DfMetricsNormalized()
    ensures NormalizeModels(DfMetrics()) == DfMetrics()
  {
    DfMetricsCells();
    assert ModelsNormalized(DfMetrics().rows);
    NormalizeModelsNoop(DfMetrics());
  }

  /** The widget `construct` builds from the test table. */
  function TestApp(showLegend: bool): App {
    App(DfMetrics(), ["prec@10", "recall"], [], showLegend)
  }

  lemma HappyPathApp(showLegend: bool)
    ensures Construct(DfMetrics(), None, showLegend) == Ok(TestApp(showLegend))
    ensures Consistent(TestApp(showLegend))
  {
    HappyPathData(showLegend);
    HappyPath(showLegend);
    ConstructConsistent(DfMetrics(), None, showLegend);
  }

  /** The average view of six rows alternating between two models: two rows,
      each holding the mean of its model's three cells. */
  lemma AverageOfAlternating(app: App, c: string)
    requires Consistent(app) && !HasString(app.data.rows, app.metricNames) && c in app.metricNames
    requires |app.data.rows| == 6
    requires Get(app.data.rows[0], ModelColumn) != Get(app.data.rows[1], ModelColumn)
    requires forall i :: 2 <= i < 6 ==> Get(app.data.rows[i], ModelColumn) == Get(app.data.rows[i - 2], ModelColumn)
    ensures var rows := app.data.rows;
      var v := AvgView(app);
      && v.Ok? && |v.value.rows| == 2
      && Get(v.value.rows[0], ModelColumn) == Get(rows[0], ModelColumn)
      && Get(v.value.rows[1], ModelColumn) == Get(rows[1], ModelColumn)
      && Get(v.value.rows[0], c) == MeanOf([Get(rows[0], c), Get(rows[2], c), Get(rows[4], c)])
      && Get(v.value.rows[1], c) == MeanOf([Get(rows[1], c), Get(rows[3], c), Get(rows[5], c)])
  {
    var rows := app.data.rows;
    AlternatingGroups(rows, c);
    AvgViewOfConsistent(app);
  }

  lemma AlternatingGroups(rows: seq<Row>, c: string)
    requires |rows| == 6
    requires Get(rows[0], ModelColumn) != Get(rows[1], ModelColumn)
    requires forall i :: 2 <= i < 6 ==> Get(rows[i], ModelColumn) == Get(rows[i - 2], ModelColumn)
    ensures Distinct(Column(rows, ModelColumn)) == [Get(rows[0], ModelColumn), Get(rows[1], ModelColumn)]
    ensures Column(Matches(rows, Get(rows[0], ModelColumn)), c) == [Get(rows[0], c), Get(rows[2], c), Get(rows[4], c)]
    ensures Column(Matches(rows, Get(rows[1], ModelColumn)), c) == [Get(rows[1], c), Get(rows[3], c), Get(rows[5], c)]
  {
    var a, b := Get(rows[0], ModelColumn), Get(rows[1], ModelColumn);
    var col := Column(rows, ModelColumn);
    assert forall i :: 2 <= i < |col| ==> col[i] == col[i - 2] by {
      assert forall i :: 0 <= i < 6 ==> col[i] == Get(rows[i], ModelColumn);
    }
    DistinctAlternating(col, 6);
    assert col[..6] == col;
    assert Get(rows[2], ModelColumn) == a && Get(rows[4], ModelColumn) == a;
    assert Get(rows[3], ModelColumn) == b && Get(rows[5], ModelColumn) == b;
    MatchesAlternating(rows, a, b);
    ColumnOfThree(rows[0], rows[2], rows[4], c);
    ColumnOfThree(rows[1], rows[3], rows[5], c);
  }

  lemma ColumnOfThree(x: Row, y: Row, z: Row, c: string)
    ensures Column([x, y, z], c) == [Get(x, c), Get(y, c), Get(z, c)]
  {
  }

  /** The average view of the test table: one row per model, in order of
      first appearance, and Model1's precision 0.1, 0.3, 0.5 averages to 0.3. */
  lemma HappyPathAverage(showLegend: bool)
    ensures Construct(DfMetrics(), None, showLegend).Ok?
    ensures var v := AvgView(Construct(DfMetrics(), None, showLegend).value);
      && v.Ok? && |v.value.rows| == 2
      && Get(v.value.rows[0], ModelColumn) == Str("Model1") && Get(v.value.rows[0], "prec@10") == Num(0.3)
      && Get(v.value.rows[1], ModelColumn) == Str("Model2") && Get(v.value.rows[1], "prec@10") == Num(0.4)
  {
    HappyPathApp(showLegend);
    TestAppShape(showLegend);
    AverageOfAlternating(TestApp(showLegend), "prec@10");
    MeanOfThree(0.1, 0.3, 0.5);
    MeanOfThree(0.2, 0.4, 0.6);
  }

  lemma TestAppShape(showLegend: bool)
    ensures var app := TestApp(showLegend);
      var rows := app.data.rows;
      && !HasString(rows, app.metricNames)
      && |rows| == 6
      && Get(rows[0], ModelColumn) == Str("Model1") && Get(rows[1], ModelColumn) == Str("Model2")
      && (forall i :: 2 <= i < 6 ==> Get(rows[i], ModelColumn) == Get(rows[i - 2], ModelColumn))
      && Get(rows[0], "prec@10") == Num(0.1) && Get(rows[1], "prec@10") == Num(0.2)
      && Get(rows[2], "prec@10") == Num(0.3) && Get(rows[3], "prec@10") == Num(0.4)
      && Get(rows[4], "prec@10") == Num(0.5) && Get(rows[5], "prec@10") == Num(0.6)
  {
    DfMetricsCells();
    var rows := DfMetrics().rows;
    assert forall i, c :: 0 <= i < |rows| && c in ["prec@10", "recall"] ==> !Get(rows[i], c).Str?;
  }
}

=== FILE: seqs.dfy ===
/** Sequence facts shared by the checks and the views: duplicate-freedom and
    pandas' `unique()` / `drop_duplicates()` (distinct values in order of first
    appearance). */
module Seqs {

  predicate NoDup<T(==,!new)>(s: seq<T>) {
    forall i, j :: 0 <= i < j < |s| ==> s[i] != s[j]
  }

  /** Position of the first occurrence of `x` in `s`. */
  function FirstIndex<T(==,!new)>(s: seq<T>, x: T): (k: nat)
    requires x in s
    ensures k < |s| && s[k] == x && x !in s[..k]
  {
    if s[0] == x then 0 else 1 + FirstIndex(s[1..], x)
  }

  /** A position holding `x` with no `x` before it is the first index. */
  lemma {:induction false} FirstIndexAt<T(!new)>(s: seq<T>, x: T, k: nat)
    requires k < |s| && s[k] == x && x !in s[..k]
    ensures FirstIndex(s, x) == k
    decreases k
  {
    if k > 0 {
      assert s[0] == s[..k][0];
      assert s[1..][..k - 1] == s[..k][1..];
      FirstIndexAt(s[1..], x, k - 1);
    }
  }

  lemma FirstIndexPrefix<T(!new)>(p: seq<T>, q: seq<T>, x: T)
    requires x in p
    ensures FirstIndex(p + q, x) == FirstIndex(p, x)
  {
    if p[0] != x {
      assert (p + q)[1..] == p[1..] + q;
      FirstIndexPrefix(p[1..], q, x);
    }
  }

  /** The distinct elements of `s`, each once, in order of first appearance. */
  function Distinct<T(==,!new)>(s: seq<T>): (r: seq<T>)
    ensures NoDup(r)
    ensures forall x :: x in r <==> x in s
    ensures forall i, j :: 0 <= i < j < |r| ==> FirstIndex(s, r[i]) < FirstIndex(s, r[j])
    ensures |r| <= |s|
  {
    if |s| == 0 then []
    else
      var p := s[..|s| - 1];
      var x := s[|s| - 1];
      assert s == p + [x];
      var d := Distinct(p);
      forall y | y in p
        ensures FirstIndex(s, y) == FirstIndex(p, y)
      {
        FirstIndexPrefix(p, [x], y);
      }
      if x in d then d
      else
        assert FirstIndex(s, x) == |p| by {
          assert s[..|p|] == p;
        }
        d + [x]
  }

  /** Appending an element adds it to the distinct elements exactly when it
      is new. */
  lemma DistinctSnoc<T(!new)>(p: seq<T>, x: T)
    ensures Distinct(p + [x]) == if x in p then Distinct(p) else Distinct(p) + [x]
  {
    assert (p + [x])[..|p|] == p;
  }

  /** `nunique() == len()`: the distinct elements are as many as the elements
      exactly when there are no duplicates. */
  lemma {:induction false} DistinctLength<T(!new)>(s: seq<T>)
    ensures |Distinct(s)| == |s| <==> NoDup(s)
    decreases |s|
  {
    if |s| > 0 {
      var p := s[..|s| - 1];
      var x := s[|s| - 1];
      assert s == p + [x];
      DistinctLength(p);
      if x in p {
        var k :| 0 <= k < |p| && p[k] == x;
        assert s[k] == s[|s| - 1];
      } else {
        if NoDup(p) {
          forall i, j | 0 <= i < j < |s|
            ensures s[i] != s[j]
          {
            if j == |s| - 1 {
              assert s[i] in p;
            } else {
              assert s[i] == p[i] && s[j] == p[j];
            }
          }
        }
        if NoDup(s) {
          assert forall i, j :: 0 <= i < j < |p| ==> p[i] == s[i] && p[j] == s[j];
        }
      }
    }
  }
}

=== FILE: sorting.dfy ===
/** Python's `sorted(column.unique())` over cells. */
module Sorting {
  import opened Cells
  import opened Seqs
  import opened Outcomes

  predicate StrictlySorted(s: seq<Cell>) {
    forall i, j :: 0 <= i < j < |s| ==> CellLess(s[i], s[j])
  }

  /** Inserts a new cell into a strictly sorted sequence. */
  function Insert(x: Cell, s: seq<Cell>): (r: seq<Cell>)
    requires StrictlySorted(s) && x !in s
    ensures StrictlySorted(r)
    ensures forall y :: y in r <==> y == x || y in s
    ensures |r| == |s| + 1
  {
    if |s| == 0 then [x]
    else if CellLess(x, s[0]) then
      assert forall j :: 0 < j < |s| ==> CellLess(x, s[j]) by {
        forall j | 0 < j < |s|
          ensures CellLess(x, s[j])
        {
          CellLessTransitive(x, s[0], s[j]);
        }
      }
      [x] + s
    else
      CellLessTotal(x, s[0]);
      var t := Insert(x, s[1..]);
      assert forall y :: y in t ==> CellLess(s[0], y);
      [s[0]] + t
  }

  /** Insertion sort of duplicate-free cells. */
  function Sort(s: seq<Cell>): (r: seq<Cell>)
    requires NoDup(s)
    ensures StrictlySorted(r)
    ensures forall y :: y in r <==> y in s
    ensures |r| == |s|
  {
    if |s| == 0 then []
    else
      var p := s[..|s| - 1];
      assert NoDup(p) by {
        assert forall i :: 0 <= i < |p| ==> p[i] == s[i];
      }
      assert s[|s| - 1] !in p;
      Insert(s[|s| - 1], Sort(p))
  }

  lemma HeadIn(s: seq<Cell>, t: seq<Cell>)
    requires |s| > 0 && forall y :: y in s ==> y in t
    ensures s[0] in t
  {
    var y := s[0];
    assert y in s;
  }

  /** A strictly sorted sequence is determined by its elements: whatever order
      `unique()` produced, the sorted list is the same. */
  lemma {:induction false} StrictlySortedUnique(a: seq<Cell>, b: seq<Cell>)
    requires StrictlySorted(a) && StrictlySorted(b)
    requires forall y :: y in a <==> y in b
    ensures a == b
    decreases |a|
  {
    if |a| == 0 {
      if |b| > 0 {
        HeadIn(b, a);
        assert false;
      }
    } else {
      assert |b| > 0 by {
        assert a[0] in b;
      }
      // The least element of each is the least element of the other.
      if a[0] != b[0] {
        assert a[0] in b && b[0] in a;
        var i :| 0 <= i < |b| && b[i] == a[0];
        var j :| 0 <= j < |a| && a[j] == b[0];
        assert CellLess(b[0], a[0]) by {
          assert i > 0;
        }
        assert CellLess(a[0], b[0]) by {
          assert j > 0;
        }
        CellLessTransitive(a[0], b[0], a[0]);
        CellLessIrreflexive(a[0]);
      }
      forall y
        ensures y in a[1..] <==> y in b[1..]
      {
        if y in a[1..] {
          var k :| 1 <= k < |a| && a[k] == y;
          assert y in b;
          CellLessIrreflexive(a[0]);
          assert y != b[0];
        }
        if y in b[1..] {
          var k :| 1 <= k < |b| && b[k] == y;
          assert y in a;
          CellLessIrreflexive(b[0]);
          assert y != a[0];
        }
      }
      StrictlySortedUnique(a[1..], b[1..]);
      assert a == [a[0]] + a[1..] && b == [b[0]] + b[1..];
    }
  }

  /** Python compares strings only with strings: a list holding both a string
      and a non-string cannot be sorted. */
  predicate MixesStringsAndOthers(s: seq<Cell>) {
    (exists i :: 0 <= i < |s| && s[i].Str?) && (exists j :: 0 <= j < |s| && !s[j].Str?)
  }

  /** Dropping duplicates keeps the kinds of cell a list holds. */
  lemma MixesOfDistinct(values: seq<Cell>)
    ensures MixesStringsAndOthers(Distinct(values)) <==> MixesStringsAndOthers(values)
  {
    var d := Distinct(values);
    if MixesStringsAndOthers(values) {
      var i :| 0 <= i < |values| && values[i].Str?;
      var j :| 0 <= j < |values| && !values[j].Str?;
      assert values[i] in d && values[j] in d;
    }
    if MixesStringsAndOthers(d) {
      var i :| 0 <= i < |d| && d[i].Str?;
      var j :| 0 <= j < |d| && !d[j].Str?;
      assert d[i] in values && d[j] in values;
    }
  }

  /** `sorted(values.unique())`: the distinct values in increasing order, or
      the `TypeError` Python raises when strings meet numbers. */
  function SortedDistinct(values: seq<Cell>): (r: Result<seq<Cell>>)
    ensures r.Err? <==> MixesStringsAndOthers(values)
    ensures r.Err? ==> r.error == TypeError(UnorderableValues)
    ensures r.Ok? ==> StrictlySorted(r.value) && (forall y :: y in r.value <==> y in values)
  {
    var d := Distinct(values);
    MixesOfDistinct(values);
    if MixesStringsAndOthers(d) then Err(TypeError(UnorderableValues)) else Ok(Sort(d))
  }
}

=== FILE: tables.dfy ===
/** The abstract table the widget works on (a pandas DataFrame reduced to its
    column order and its rows), and the DataFrame operations it uses:
    column selection, the space-to-underscore rename of model names, and the
    left merge on the model column. */
module Tables {
  import opened Cells
  import opened Seqs
  import opened Outcomes

  /** `Columns.Model` and `Columns.Split` of rectools. */
  const ModelColumn: string := "model"
  const SplitColumn: string := "i_split"

  /** A row maps column names to cells; a column the map lacks reads as missing. */
  type Row = map<string, Cell>

  datatype Table = Table(columns: seq<string>, rows: seq<Row>)

  function Get(r: Row, c: string): Cell {
    if c in r then r[c] else Missing
  }

  /** The cells of one column, top to bottom. */
  function Column(rows: seq<Row>, c: string): seq<Cell> {
    seq(|rows|, i requires 0 <= i < |rows| => Get(rows[i], c))
  }

  /** The present (non-NaN) cells of a sequence, in order: what `nunique()`
      and `groupby` look at. */
  function NonMissing(s: seq<Cell>): (r: seq<Cell>)
    ensures forall x :: x in r <==> x in s && x != Missing
    ensures |r| <= |s|
    ensures Missing !in s ==> r == s
  {
    if |s| == 0 then []
    else (if s[0] == Missing then [] else [s[0]]) + NonMissing(s[1..])
  }

  /** pandas' `nunique()` on a column. */
  function NUnique(s: seq<Cell>): nat {
    |Distinct(NonMissing(s))|
  }

  /** `nunique() == len()` holds exactly when the column has no NaN and no
      value twice. */
  lemma NUniqueIsLength(s: seq<Cell>)
    ensures NUnique(s) == |s| <==> NoDup(s) && Missing !in s
  {
    var n := NonMissing(s);
    DistinctLength(n);
    if NUnique(s) == |s| && Missing in s {
      NonMissingShorter(s);
    }
  }

  lemma {:induction false} NonMissingShorter(s: seq<Cell>)
    requires Missing in s
    ensures |NonMissing(s)| < |s|
  {
    if s[0] != Missing {
      NonMissingShorter(s[1..]);
    }
  }

  /** The columns of `cols` not in `excluded`, in their original order. */
  function Without(cols: seq<string>, excluded: set<string>): (r: seq<string>)
    ensures forall c :: c in r <==> c in cols && c !in excluded
  {
    if |cols| == 0 then []
    else (if cols[0] in excluded then [] else [cols[0]]) + Without(cols[1..], excluded)
  }

  /** Removing columns commutes with splitting the column list: the kept
      columns keep their relative order. */
  lemma {:induction false} WithoutAppend(a: seq<string>, b: seq<string>, excluded: set<string>)
    ensures Without(a + b, excluded) == Without(a, excluded) + Without(b, excluded)
    decreases |a|
  {
    if |a| == 0 {
      assert a + b == b;
    } else {
      assert (a + b)[1..] == a[1..] + b;
      WithoutAppend(a[1..], b, excluded);
    }
  }

  /** Excluding columns that are not there keeps the list as it is. */
  lemma {:induction false} WithoutNone(cols: seq<string>, excluded: set<string>)
    requires forall c :: c in cols ==> c !in excluded
    ensures Without(cols, excluded) == cols
    decreases |cols|
  {
    if |cols| > 0 {
      assert cols[0] in cols;
      WithoutNone(cols[1..], excluded);
      assert cols == [cols[0]] + cols[1..];
    }
  }

  /** Excluding every column leaves none. */
  lemma {:induction false} WithoutAll(cols: seq<string>, excluded: set<string>)
    requires forall c :: c in cols ==> c in excluded
    ensures Without(cols, excluded) == []
    decreases |cols|
  {
    if |cols| > 0 {
      assert cols[0] in cols;
      WithoutAll(cols[1..], excluded);
    }
  }

  /** `str.replace(" ", "_")` on one model name. */
  function NormalizeName(s: string): (r: string)
    ensures |r| == |s|
    ensures ' ' !in r
    ensures forall k :: 0 <= k < |s| && s[k] != ' ' ==> r[k] == s[k]
    ensures forall k :: 0 <= k < |s| && s[k] == ' ' ==> r[k] == '_'
  {
    seq(|s|, k requires 0 <= k < |s| => if s[k] == ' ' then '_' else s[k])
  }

  /** A name is left as it is by the rename exactly when it has no space, so
      renaming twice is renaming once. */
  lemma NormalizeNameFixed(s: string)
    ensures NormalizeName(s) == s <==> ' ' !in s
    ensures NormalizeName(NormalizeName(s)) == NormalizeName(s)
  {
    if ' ' !in s {
      assert forall k :: 0 <= k < |s| ==> NormalizeName(s)[k] == s[k];
    }
    var n := NormalizeName(s);
    assert forall k :: 0 <= k < |n| ==> NormalizeName(n)[k] == n[k];
  }

  /** Whether pandas stores column `c` of `rows` as float64: it holds a
      float or a NaN and no string. Integers alone are int64, and any string
      makes the column object. */
  predicate FloatColumn(rows: seq<Row>, c: string) {
    (exists i :: 0 <= i < |rows| && (Get(rows[i], c).Num? || Get(rows[i], c).Missing?)) &&
    forall i :: 0 <= i < |rows| ==> !Get(rows[i], c).Str?
  }

  /** `astype(str)` of row `i`'s cell in column `c`, written as its column's
      dtype dictates. */
  function ColumnText(rows: seq<Row>, i: nat, c: string): string
    requires i < |rows|
  {
    ColumnCellText(Get(rows[i], c), FloatColumn(rows, c))
  }

  /** `models[Model].astype(str).str.replace(" ", "_")` for one cell of a
      column stored as float64 (`asFloat`) or not: the cell's text with every
      space replaced by an underscore, so a string that had no space is kept. */
  function NormalizeModel(c: Cell, asFloat: bool): (r: Cell)
    ensures r.Str? && r.s == NormalizeName(ColumnCellText(c, asFloat))
    ensures ' ' !in r.s
    ensures c.Str? && ' ' !in c.s ==> r == c
  {
    NormalizeNameFixed(ColumnCellText(c, asFloat));
    Str(NormalizeName(ColumnCellText(c, asFloat)))
  }

  /** The renamed model cell of row `i`, as the column rename writes it. */
  function ModelName(t: Table, i: nat): Cell
    requires i < |t.rows|
  {
    NormalizeModel(Get(t.rows[i], ModelColumn), FloatColumn(t.rows, ModelColumn))
  }

  /** The table with every model cell replaced by its normalised name. */
  function NormalizeModels(t: Table): (r: Table)
    ensures r.columns == t.columns && |r.rows| == |t.rows|
    ensures forall i :: 0 <= i < |t.rows| ==> Get(r.rows[i], ModelColumn) == ModelName(t, i)
    ensures forall i, c :: 0 <= i < |t.rows| && c != ModelColumn ==> Get(r.rows[i], c) == Get(t.rows[i], c)
  {
    Table(t.columns, seq(|t.rows|, i requires 0 <= i < |t.rows| =>
      t.rows[i][ModelColumn := ModelName(t, i)]))
  }

  /** `merged[Model].str.replace(" ", "_")` on the merged table: string cells
      are renamed, anything else becomes NaN (pandas' `.str` accessor). Only
      the model column changes, and no model name keeps a space. */
  function ReplaceModelSpaces(t: Table): (r: Table)
    ensures r.columns == t.columns && |r.rows| == |t.rows|
    ensures forall i, c :: 0 <= i < |t.rows| && c != ModelColumn ==> Get(r.rows[i], c) == Get(t.rows[i], c)
    ensures forall i :: 0 <= i < |t.rows| ==>
      (Get(r.rows[i], ModelColumn).Str? <==> Get(t.rows[i], ModelColumn).Str?) &&
      (Get(t.rows[i], ModelColumn).Str? ==>
        Get(r.rows[i], ModelColumn) == Str(NormalizeName(Get(t.rows[i], ModelColumn).s))) &&
      (Get(r.rows[i], ModelColumn).Str? ==> ' ' !in Get(r.rows[i], ModelColumn).s) &&
      (!Get(r.rows[i], ModelColumn).Str? ==> Get(r.rows[i], ModelColumn) == Missing)
  {
    Table(t.columns, seq(|t.rows|, i requires 0 <= i < |t.rows| =>
      var c := Get(t.rows[i], ModelColumn);
      t.rows[i][ModelColumn := if c.Str? then Str(NormalizeName(c.s)) else Missing]))
  }

  /** Model cells that are already normalised names: the rename at merge
      time changes nothing. */
  predicate ModelsNormalized(rows: seq<Row>) {
    forall i :: 0 <= i < |rows| ==> Get(rows[i], ModelColumn).Str? && ' ' !in Get(rows[i], ModelColumn).s
  }

  lemma ReplaceModelSpacesNoop(t: Table)
    requires ModelsNormalized(t.rows)
    ensures ReplaceModelSpaces(t) == t
  {
    var r := ReplaceModelSpaces(t);
    forall i | 0 <= i < |t.rows|
      ensures r.rows[i] == t.rows[i]
    {
      var c := Get(t.rows[i], ModelColumn);
      NormalizeNameFixed(c.s);
      assert r.rows[i] == t.rows[i][ModelColumn := c];
    }
  }

  /** The rename leaves tables whose model names are normalised as they are. */
  lemma NormalizeModelsNoop(t: Table)
    requires ModelsNormalized(t.rows)
    ensures NormalizeModels(t) == t
  {
    var r := NormalizeModels(t);
    forall i | 0 <= i < |t.rows|
      ensures r.rows[i] == t.rows[i]
    {
      var c := Get(t.rows[i], ModelColumn);
      NormalizeNameFixed(c.s);
      assert ModelName(t, i) == c;
    }
  }

  /** `df[cols]` for one row: only the listed columns. */
  function Project(r: Row, cols: seq<string>): Row {
    map c | c in cols :: Get(r, c)
  }

  /** The rows of `rows` whose model cell is `key`, in order. */
  function Matches(rows: seq<Row>, key: Cell): seq<Row> {
    if |rows| == 0 then []
    else (if Get(rows[0], ModelColumn) == key then [rows[0]] else []) + Matches(rows[1..], key)
  }

  /** The matches are exactly the rows with that model cell. */
  lemma {:induction false} MatchesMembers(rows: seq<Row>, key: Cell, x: Row)
    ensures x in Matches(rows, key) <==> x in rows && Get(x, ModelColumn) == key
    decreases |rows|
  {
    if |rows| > 0 {
      MatchesMembers(rows[1..], key, x);
      assert rows == [rows[0]] + rows[1..];
    }
  }

  /** A row of a left merge: the left row, plus the right table's own columns
      taken from the matching right row (all NaN when nothing matched). */
  function MergeRow(l: Row, r: Row, extra: seq<string>): Row {
    l + map c | c in extra :: Get(r, c)
  }

  function JoinOne(l: Row, right: seq<Row>, extra: seq<string>): seq<Row> {
    var ms := Matches(right, Get(l, ModelColumn));
    if |ms| == 0 then [MergeRow(l, map[], extra)]
    else seq(|ms|, k requires 0 <= k < |ms| => MergeRow(l, ms[k], extra))
  }

  function LeftMergeRows(left: seq<Row>, right: seq<Row>, extra: seq<string>): (r: seq<Row>)
    ensures |r| >= |left|
  {
    if |left| == 0 then []
    else JoinOne(left[0], right, extra) + LeftMergeRows(left[1..], right, extra)
  }

  /** `left.merge(right, on=Model, how="left")`: every left row joined with
      each right row of the same model, or kept alone when there is none. The
      columns are the left ones, then the right ones the left lacks; no left
      row is lost. */
  function LeftMerge(left: Table, right: Table): (r: Table)
    ensures forall c :: c in r.columns <==> c in left.columns || c in right.columns
    ensures |r.columns| >= |left.columns| && r.columns[..|left.columns|] == left.columns
    ensures |r.rows| >= |left.rows|
  {
    var extra := Without(right.columns, set c | c in left.columns);
    Table(left.columns + extra, LeftMergeRows(left.rows, right.rows, extra))
  }

  /** A model column pandas stores with a numeric dtype: at least one row,
      and only integer or float model cells. */
  predicate NumericKeys(t: Table) {
    |t.rows| > 0 && forall i :: 0 <= i < |t.rows| ==> IsNumeric(Get(t.rows[i], ModelColumn))
  }

  /** pandas refuses to merge a column of strings with a numeric one. The
      key types are not compared when one side has no rows. */
  predicate KeyTypesClash(left: Table, right: Table) {
    NumericKeys(right) && |left.rows| > 0
  }

  /** The merge in `construct`, whose left model column holds the strings the
      name check made: `ValueError` when the key types clash, otherwise the
      left merge. */
  function MergeOnModel(left: Table, right: Table): (r: Result<Table>)
    ensures r.Err? <==> KeyTypesClash(left, right)
    ensures r.Err? ==> r.error == ValueError(MergeKeyTypes)
    ensures r.Ok? ==> r.value == LeftMerge(left, right)
  {
    if KeyTypesClash(left, right) then Err(ValueError(MergeKeyTypes)) else Ok(LeftMerge(left, right))
  }

  /** A right table holding a string model name, or no rows, always merges. */
  lemma StringKeysMerge(left: Table, right: Table)
    requires |right.rows| == 0 || exists i :: 0 <= i < |right.rows| && Get(right.rows[i], ModelColumn).Str?
    ensures MergeOnModel(left, right) == Ok(LeftMerge(left, right))
  {
  }

  /** The right-hand row a left row joins with when right-hand models are
      unique (empty, so every right column reads NaN, when there is none). */
  function RowFor(right: seq<Row>, key: Cell): Row {
    var ms := Matches(right, key);
    if |ms| == 0 then map[] else ms[0]
  }

  lemma {:induction false} NoMatches(rows: seq<Row>, key: Cell)
    requires key !in Column(rows, ModelColumn)
    ensures Matches(rows, key) == []
    decreases |rows|
  {
    if |rows| > 0 {
      var col := Column(rows, ModelColumn);
      assert col[0] in col && col[0] == Get(rows[0], ModelColumn);
      assert Column(rows[1..], ModelColumn) == col[1..];
      NoMatches(rows[1..], key);
    }
  }

  lemma {:induction false} MatchesAtMostOne(right: seq<Row>, key: Cell)
    requires NoDup(Column(right, ModelColumn))
    ensures |Matches(right, key)| <= 1
    decreases |right|
  {
    if |right| > 0 {
      var tail := right[1..];
      var col := Column(right, ModelColumn);
      assert Column(tail, ModelColumn) == col[1..];
      MatchesAtMostOne(tail, key);
      if Get(right[0], ModelColumn) == key {
        assert key !in col[1..] by {
          forall j | 0 <= j < |col| - 1
            ensures col[1..][j] != key
          {
            assert col[1..][j] == col[j + 1] && col[0] == key;
          }
        }
        NoMatches(tail, key);
      }
    }
  }

  /** With unique right-hand models the left merge keeps exactly one row per
      left row, in order, each joined with its model's right-hand row. */
  lemma {:induction false} LeftMergeUnique(left: seq<Row>, right: seq<Row>, extra: seq<string>)
    requires NoDup(Column(right, ModelColumn))
    ensures |LeftMergeRows(left, right, extra)| == |left|
    ensures forall i :: 0 <= i < |left| ==>
      LeftMergeRows(left, right, extra)[i] == MergeRow(left[i], RowFor(right, Get(left[i], ModelColumn)), extra)
    decreases |left|
  {
    if |left| > 0 {
      var head := JoinOne(left[0], right, extra);
      var rest := LeftMergeRows(left[1..], right, extra);
      JoinOneUnique(left[0], right, extra);
      LeftMergeUnique(left[1..], right, extra);
      assert LeftMergeRows(left, right, extra) == head + rest;
      forall i | 0 <= i < |left|
        ensures (head + rest)[i] == MergeRow(left[i], RowFor(right, Get(left[i], ModelColumn)), extra)
      {
        if i > 0 {
          assert (head + rest)[i] == rest[i - 1] && left[i] == left[1..][i - 1];
        }
      }
    }
  }

  /** A left row joins with exactly one row when right-hand models are unique. */
  lemma JoinOneUnique(l: Row, right: seq<Row>, extra: seq<string>)
    requires NoDup(Column(right, ModelColumn))
    ensures JoinOne(l, right, extra) == [MergeRow(l, RowFor(right, Get(l, ModelColumn)), extra)]
  {
    MatchesAtMostOne(right, Get(l, ModelColumn));
  }

  /** A merged row reads the right-hand row on the right table's own columns
      and the left row everywhere else. */
  lemma GetMergeRow(l: Row, r: Row, extra: seq<string>, c: string)
    ensures Get(MergeRow(l, r, extra), c) == if c in extra then Get(r, c) else Get(l, c)
  {
  }

  /** The left merge on unique right-hand models, cell by cell: row `i` is
      left row `i` on the left columns and its model's right-hand row on the
      right table's own columns. */
  lemma LeftMergeCells(left: Table, right: Table)
    requires ModelColumn in left.columns
    requires NoDup(Column(right.rows, ModelColumn))
    ensures var m := LeftMerge(left, right);
      && |m.rows| == |left.rows|
      && (forall i, c :: 0 <= i < |left.rows| && c in left.columns ==> Get(m.rows[i], c) == Get(left.rows[i], c))
      && (forall i, c :: 0 <= i < |left.rows| && c in right.columns && c !in left.columns ==>
            Get(m.rows[i], c) == Get(RowFor(right.rows, Get(left.rows[i], ModelColumn)), c))
  {
    var extra := Without(right.columns, set c | c in left.columns);
    LeftMergeUnique(left.rows, right.rows, extra);
    var m := LeftMerge(left, right);
    forall i, c | 0 <= i < |left.rows|
      ensures Get(m.rows[i], c) == Get(MergeRow(left.rows[i], RowFor(right.rows, Get(left.rows[i], ModelColumn)), extra), c)
    {
    }
  }

  /** One cell of the left merge on unique right-hand models. */
  lemma LeftMergeCell(left: Table, right: Table, i: int, c: string)
    requires ModelColumn in left.columns
    requires NoDup(Column(right.rows, ModelColumn))
    requires 0 <= i < |left.rows|
    ensures |LeftMerge(left, right).rows| == |left.rows|
    ensures Get(LeftMerge(left, right).rows[i], c) ==
      if c in right.columns && c !in left.columns then Get(RowFor(right.rows, Get(left.rows[i], ModelColumn)), c)
      else Get(left.rows[i], c)
  {
    var extra := Without(right.columns, set c | c in left.columns);
    LeftMergeUnique(left.rows, right.rows, extra);
    assert c in extra <==> c in right.columns && c !in left.columns;
    GetMergeRow(left.rows[i], RowFor(right.rows, Get(left.rows[i], ModelColumn)), extra, c);
  }

  /** Merging a table whose columns the left table already has (unique
      models) changes nothing. */
  lemma MergeNothingNew(left: Table, right: Table)
    requires NoDup(Column(right.rows, ModelColumn))
    requires forall c :: c in right.columns ==> c in left.columns
    ensures LeftMerge(left, right) == left
  {
    WithoutAll(right.columns, set c | c in left.columns);
    MergeRowsNothingNew(left.rows, right.rows);
    assert left.columns + [] == left.columns;
  }

  lemma MergeRowsNothingNew(left: seq<Row>, right: seq<Row>)
    requires NoDup(Column(right, ModelColumn))
    ensures LeftMergeRows(left, right, []) == left
  {
    LeftMergeUnique(left, right, []);
    forall i | 0 <= i < |left|
      ensures LeftMergeRows(left, right, [])[i] == left[i]
    {
      assert MergeRow(left[i], RowFor(right, Get(left[i], ModelColumn)), []) == left[i];
    }
  }

}

=== FILE: validation.dfy ===
/** The four input checks `MetricsApp.construct` runs before it builds
    anything (rectools/visuals/metrics_app.py, `_validate_*`). */
module Validation {
  import opened Cells
  import opened Seqs
  import opened Outcomes
  import opened Tables

  /** The metric columns: everything but the model and fold columns, in order. */
  function MetricColumns(cols: seq<string>): (r: seq<string>)
    ensures forall c :: c in r <==> c in cols && c != ModelColumn && c != SplitColumn
  {
    Without(cols, {ModelColumn, SplitColumn})
  }

  predicate HasMetricColumn(cols: seq<string>) {
    exists c :: c in cols && c != ModelColumn && c != SplitColumn
  }

  /** `df.isnull().values.any()`. */
  predicate HasMissing(t: Table) {
    exists i, c :: 0 <= i < |t.rows| && c in t.columns && Get(t.rows[i], c) == Missing
  }

  /** `_validate_models_metrics_base`: a model column, at least one metric
      column and no NaN, checked in that order. */
  function BaseCheck(t: Table): (r: Outcome)
    ensures r == Pass <==> ModelColumn in t.columns && HasMetricColumn(t.columns) && !HasMissing(t)
    ensures ModelColumn !in t.columns ==> r == Fail(KeyError(MissingModelColumn))
    ensures ModelColumn in t.columns && !HasMetricColumn(t.columns) ==> r == Fail(KeyError(NoMetricColumn))
    ensures ModelColumn in t.columns && HasMetricColumn(t.columns) && HasMissing(t) ==>
      r == Fail(ValueError(MissingValueInMetrics))
  {
    if ModelColumn !in t.columns then Fail(KeyError(MissingModelColumn))
    else if |MetricColumns(t.columns)| < 1 then
      Fail(KeyError(NoMetricColumn))
    else
      assert MetricColumns(t.columns)[0] in MetricColumns(t.columns);
      if HasMissing(t) then Fail(ValueError(MissingValueInMetrics))
      else Pass
  }

  /** The fold ids of model `m`'s rows (`group[Split].unique()`). NaN is left
      out: `unique()` would keep it, but the base check runs first and has
      already rejected any NaN, so the difference never shows in `construct`. */
  function FoldSet(t: Table, m: Cell): set<Cell> {
    set i | 0 <= i < |t.rows| && Get(t.rows[i], ModelColumn) == m && Get(t.rows[i], SplitColumn) != Missing
      :: Get(t.rows[i], SplitColumn)
  }

  /** The groups of `groupby(Model)`: the present model cells, each once. */
  function GroupKeys(t: Table): (r: seq<Cell>)
    ensures forall m :: m in r <==> m in Column(t.rows, ModelColumn) && m != Missing
  {
    Distinct(NonMissing(Column(t.rows, ModelColumn)))
  }

  /** The loop over the groups: a model whose fold count differs from the
      reference fails first on the count, one whose fold set differs with the
      same count fails on the names. */
  function CheckGroups(t: Table, ms: seq<Cell>, ref: set<Cell>): (r: Outcome)
    ensures r == Pass <==> forall k :: 0 <= k < |ms| ==> FoldSet(t, ms[k]) == ref
    ensures r != Pass ==> exists k :: (0 <= k < |ms| &&
      (r == Fail(ValueError(FoldCount(ms[k]))) || r == Fail(ValueError(FoldNames(ms[k])))))
  {
    if |ms| == 0 then Pass
    else
      var fs := FoldSet(t, ms[0]);
      if |fs| != |ref| then Fail(ValueError(FoldCount(ms[0])))
      else if fs != ref then Fail(ValueError(FoldNames(ms[0])))
      else
        var r := CheckGroups(t, ms[1..], ref);
        assert forall k :: 1 <= k < |ms| ==> ms[k] == ms[1..][k - 1];
        r
  }

  /** Every present model has the same fold set. */
  predicate SameFolds(t: Table) {
    forall i, j :: (0 <= i < |t.rows| && 0 <= j < |t.rows|
      && Get(t.rows[i], ModelColumn) != Missing && Get(t.rows[j], ModelColumn) != Missing) ==>
      FoldSet(t, Get(t.rows[i], ModelColumn)) == FoldSet(t, Get(t.rows[j], ModelColumn))
  }

  /** `_validate_models_metrics_split`: a no-op without a fold column;
      otherwise the first group is the reference and every group must have
      its fold set. With no group at all `next(iter(...))` raises. */
  function SplitCheck(t: Table): (r: Outcome)
    ensures SplitColumn !in t.columns ==> r == Pass
    ensures SplitColumn in t.columns && ModelColumn !in t.columns ==> r == Fail(KeyError(MissingModelColumn))
    ensures SplitColumn in t.columns && ModelColumn in t.columns && |GroupKeys(t)| == 0 ==> r == Fail(StopIteration)
    ensures SplitColumn in t.columns && ModelColumn in t.columns && |GroupKeys(t)| > 0 ==>
      (r == Pass <==> SameFolds(t)) && (r != Pass ==> r.Fail? && r.error.ValueError?)
  {
    if SplitColumn !in t.columns then Pass
    else if ModelColumn !in t.columns then Fail(KeyError(MissingModelColumn))
    else
      var ms := GroupKeys(t);
      if |ms| == 0 then Fail(StopIteration)
      else
        var r := CheckGroups(t, ms, FoldSet(t, ms[0]));
        SameFoldsIffGroups(t, ms);
        r
  }

  lemma SameFoldsIffGroups(t: Table, ms: seq<Cell>)
    requires |ms| > 0
    requires forall m :: m in ms <==> m in Column(t.rows, ModelColumn) && m != Missing
    ensures SameFolds(t) <==> forall k :: 0 <= k < |ms| ==> FoldSet(t, ms[k]) == FoldSet(t, ms[0])
  {
    var col := Column(t.rows, ModelColumn);
    if SameFolds(t) {
      forall k | 0 <= k < |ms|
        ensures FoldSet(t, ms[k]) == FoldSet(t, ms[0])
      {
        assert ms[k] in ms && ms[0] in ms;
        var i :| 0 <= i < |col| && col[i] == ms[k];
        var j :| 0 <= j < |col| && col[j] == ms[0];
        assert Get(t.rows[i], ModelColumn) == ms[k] && Get(t.rows[j], ModelColumn) == ms[0];
      }
    }
    if forall k :: 0 <= k < |ms| ==> FoldSet(t, ms[k]) == FoldSet(t, ms[0]) {
      forall i, j | 0 <= i < |t.rows| && 0 <= j < |t.rows|
        && Get(t.rows[i], ModelColumn) != Missing && Get(t.rows[j], ModelColumn) != Missing
        ensures FoldSet(t, Get(t.rows[i], ModelColumn)) == FoldSet(t, Get(t.rows[j], ModelColumn))
      {
        assert col[i] in col && col[j] in col;
        assert Get(t.rows[i], ModelColumn) in ms && Get(t.rows[j], ModelColumn) in ms;
      }
    }
  }

  /** The key the source builds for row `i` in the uniqueness test: the
      renamed model name followed, with no separator, by the fold id's text
      (both as their columns' dtypes write them). */
  function ConcatKey(t: Table, i: nat): string
    requires i < |t.rows|
  {
    ModelName(t, i).s + (if SplitColumn in t.columns then ColumnText(t.rows, i, SplitColumn) else "")
  }

  function ConcatKeys(t: Table): seq<string> {
    seq(|t.rows|, i requires 0 <= i < |t.rows| => ConcatKey(t, i))
  }

  predicate Repeats<T(==,!new)>(s: seq<T>) {
    exists i, j :: 0 <= i < j < |s| && s[i] == s[j]
  }

  /** `nunique() != len()` on a column without NaN. */
  lemma RepeatsIffShorter<T(!new)>(keys: seq<T>)
    ensures |Distinct(keys)| != |keys| <==> Repeats(keys)
  {
    DistinctLength(keys);
  }

  /** `_validate_models_metrics_names` as written: model names are renamed
      (spaces to underscores) and the check fails when the concatenated key
      repeats. The renamed table is what the rest of `construct` sees. */
  function NamesCheckAsWritten(t: Table): (r: Result<Table>)
    ensures ModelColumn !in t.columns ==> r == Err(KeyError(MissingModelColumn))
    ensures ModelColumn in t.columns ==>
      (r.Err? <==> Repeats(ConcatKeys(t))) &&
      (r.Err? ==> r.error == ValueError(DuplicateModelNames)) &&
      (r.Ok? ==> r.value == NormalizeModels(t))
  {
    if ModelColumn !in t.columns then Err(KeyError(MissingModelColumn))
    else
      var keys := ConcatKeys(t);
      RepeatsIffShorter(keys);
      if |Distinct(keys)| != |keys| then Err(ValueError(DuplicateModelNames))
      else Ok(NormalizeModels(t))
  }

  /** The identity the uniqueness test is meant to protect: the renamed
      model name, and the fold id when there is a fold column. */
  function PairKey(t: Table, i: nat): (Cell, Cell)
    requires i < |t.rows|
  {
    (ModelName(t, i), if SplitColumn in t.columns then Get(t.rows[i], SplitColumn) else Missing)
  }

  function PairKeys(t: Table): seq<(Cell, Cell)> {
    seq(|t.rows|, i requires 0 <= i < |t.rows| => PairKey(t, i))
  }

  /** Two rows share the renamed model name and, when folds exist, the fold. */
  predicate PairsRepeat(t: Table) {
    exists i, j :: 0 <= i < j < |t.rows| &&
      ModelName(t, i) == ModelName(t, j) &&
      (SplitColumn in t.columns ==> Get(t.rows[i], SplitColumn) == Get(t.rows[j], SplitColumn))
  }

  lemma PairsRepeatIff(t: Table)
    ensures Repeats(PairKeys(t)) <==> PairsRepeat(t)
  {
    if Repeats(PairKeys(t)) {
      RepeatedKeysRepeatPairs(t);
    }
    if PairsRepeat(t) {
      RepeatedPairsRepeatKeys(t);
    }
  }

  lemma RepeatedKeysRepeatPairs(t: Table)
    requires Repeats(PairKeys(t))
    ensures PairsRepeat(t)
  {
    var keys := PairKeys(t);
    var i, j :| 0 <= i < j < |keys| && keys[i] == keys[j];
    assert keys[i] == PairKey(t, i);
    assert keys[j] == PairKey(t, j);
  }

  lemma RepeatedPairsRepeatKeys(t: Table)
    requires PairsRepeat(t)
    ensures Repeats(PairKeys(t))
  {
    var keys := PairKeys(t);
    var i, j :| 0 <= i < j < |t.rows| &&
      ModelName(t, i) == ModelName(t, j) &&
      (SplitColumn in t.columns ==> Get(t.rows[i], SplitColumn) == Get(t.rows[j], SplitColumn));
    assert keys[i] == keys[j];
  }

  /** The corrected name check: fails exactly when a (model, fold) pair, or a
      model when there are no folds, repeats. */
  function NamesCheck(t: Table): (r: Result<Table>)
    ensures ModelColumn !in t.columns ==> r == Err(KeyError(MissingModelColumn))
    ensures ModelColumn in t.columns ==>
      (r.Err? <==> PairsRepeat(t)) &&
      (r.Err? ==> r.error == ValueError(DuplicateModelNames)) &&
      (r.Ok? ==> r.value == NormalizeModels(t))
  {
    if ModelColumn !in t.columns then Err(KeyError(MissingModelColumn))
    else
      var keys := PairKeys(t);
      RepeatsIffShorter(keys);
      PairsRepeatIff(t);
      if |Distinct(keys)| != |keys| then Err(ValueError(DuplicateModelNames))
      else Ok(NormalizeModels(t))
  }

  /** Two rows with the same model (and the same fold, when folds exist) are
      always rejected, by the source's check and by the corrected one. */
  lemma DuplicatePairRejected(t: Table, i: nat, j: nat)
    requires ModelColumn in t.columns
    requires i < j < |t.rows|
    requires Get(t.rows[i], ModelColumn) == Get(t.rows[j], ModelColumn)
    requires SplitColumn in t.columns ==> Get(t.rows[i], SplitColumn) == Get(t.rows[j], SplitColumn)
    ensures NamesCheck(t) == Err(ValueError(DuplicateModelNames))
    ensures NamesCheckAsWritten(t) == Err(ValueError(DuplicateModelNames))
  {
    assert ConcatKeys(t)[i] == ConcatKeys(t)[j];
    assert PairsRepeat(t);
  }

  /** A repeated (model, fold) pair is a repeated concatenated key: the
      source's check rejects everything the corrected one rejects. */
  lemma RepeatedPairsRepeatConcatKeys(t: Table)
    requires PairsRepeat(t)
    ensures Repeats(ConcatKeys(t))
  {
    var i, j :| 0 <= i < j < |t.rows| &&
      ModelName(t, i) == ModelName(t, j) &&
      (SplitColumn in t.columns ==> Get(t.rows[i], SplitColumn) == Get(t.rows[j], SplitColumn));
    assert ConcatKeys(t)[i] == ConcatKeys(t)[j];
  }

  /** Two concatenations with equally long first parts are equal only when
      both parts are: with model names of one length the concatenated key
      splits back into the name and the fold text. */
  lemma ConcatSplits(x: string, f: string, y: string, g: string)
    requires |x| == |y| && x + f == y + g
    ensures x == y && f == g
  {
    assert x == (x + f)[..|x|] && y == (y + g)[..|y|];
    assert f == (x + f)[|x|..] && g == (y + g)[|y|..];
  }

  /** `_validate_models_metadata`: a model column, then unique model values,
      then no NaN among them. */
  function MetaCheck(meta: Table): (r: Outcome)
    ensures r == Pass <==> (ModelColumn in meta.columns &&
      NoDup(Column(meta.rows, ModelColumn)) && Missing !in Column(meta.rows, ModelColumn))
    ensures ModelColumn !in meta.columns ==> r == Fail(KeyError(MetaMissingModelColumn))
    ensures ModelColumn in meta.columns && r != Pass ==> r.Fail? && r.error.ValueError?
  {
    if ModelColumn !in meta.columns then Fail(KeyError(MetaMissingModelColumn))
    else
      var col := Column(meta.rows, ModelColumn);
      NUniqueIsLength(col);
      if NUnique(col) != |meta.rows| then Fail(ValueError(MetaNotUnique))
      else if Missing in col then Fail(ValueError(MetaMissingModel))
      else Pass
  }

  /** The NaN test of the metadata check can never fire: `nunique()` skips
      NaN, so a NaN model already makes the uniqueness test fail, and the
      error names uniqueness rather than the NaN. */
  lemma MetaMissingModelUnreported(meta: Table)
    ensures MetaCheck(meta) != Fail(ValueError(MetaMissingModel))
    ensures ModelColumn in meta.columns && Missing in Column(meta.rows, ModelColumn) ==>
      MetaCheck(meta) == Fail(ValueError(MetaNotUnique))
  {
    NUniqueIsLength(Column(meta.rows, ModelColumn));
  }

  /** Four rows with unique (model, fold) pairs: models "A" and "A1", each
      with folds 1 and 11. */
  function CollisionExample(): Table {
    Table([ModelColumn, SplitColumn, "prec@10"], [
      map[ModelColumn := Str("A"), SplitColumn := Int(1), "prec@10" := Num(0.1)],
      map[ModelColumn := Str("A"), SplitColumn := Int(11), "prec@10" := Num(0.2)],
      map[ModelColumn := Str("A1"), SplitColumn := Int(1), "prec@10" := Num(0.3)],
      map[ModelColumn := Str("A1"), SplitColumn := Int(11), "prec@10" := Num(0.4)]
    ])
  }

  lemma CollisionExampleCells()
    ensures var t := CollisionExample();
      |t.rows| == 4 &&
      Get(t.rows[0], ModelColumn) == Str("A") && Get(t.rows[0], SplitColumn) == Int(1) &&
      Get(t.rows[1], ModelColumn) == Str("A") && Get(t.rows[1], SplitColumn) == Int(11) &&
      Get(t.rows[2], ModelColumn) == Str("A1") && Get(t.rows[2], SplitColumn) == Int(1) &&
      Get(t.rows[3], ModelColumn) == Str("A1") && Get(t.rows[3], SplitColumn) == Int(11)
  {
  }

  lemma CollisionExampleFolds()
    ensures SplitCheck(CollisionExample()) == Pass
  {
    var t := CollisionExample();
    CollisionExampleCells();
    var f := {Int(1), Int(11)};
    assert forall i :: 0 <= i < |t.rows| ==> Get(t.rows[i], SplitColumn) in f;
    assert Get(t.rows[0], SplitColumn) in FoldSet(t, Str("A"));
    assert Get(t.rows[1], SplitColumn) in FoldSet(t, Str("A"));
    assert Get(t.rows[2], SplitColumn) in FoldSet(t, Str("A1"));
    assert Get(t.rows[3], SplitColumn) in FoldSet(t, Str("A1"));
    assert FoldSet(t, Str("A")) == f;
    assert FoldSet(t, Str("A1")) == f;
    assert forall i :: 0 <= i < |t.rows| ==> Get(t.rows[i], ModelColumn) in {Str("A"), Str("A1")};
    assert SameFolds(t);
    assert Str("A") in GroupKeys(t) by {
      assert Column(t.rows, ModelColumn)[0] == Str("A");
    }
  }

  lemma CollisionExampleNames()
    ensures NamesCheck(CollisionExample()).Ok?
    ensures NamesCheckAsWritten(CollisionExample()) == Err(ValueError(DuplicateModelNames))
  {
    var t := CollisionExample();
    CollisionExampleCells();
    NormalizeNameFixed("A");
    NormalizeNameFixed("A1");
    assert IntText(11) == "11" && IntText(1) == "1";
    assert !FloatColumn(t.rows, SplitColumn) && !FloatColumn(t.rows, ModelColumn);
    var keys := ConcatKeys(t);
    assert keys[1] == "A11" && keys[2] == "A11";
    assert ModelName(t, 0) != ModelName(t, 2);
    assert !PairsRepeat(t);
  }

  /** Models "A" and "A1", each with folds 11 and 1.0: the fold column holds
      a float, so pandas stores it as float64 and writes the integer 11 as
      "11.0". */
  function FloatFoldExample(): Table {
    Table([ModelColumn, SplitColumn, "prec@10"], [
      map[ModelColumn := Str("A"), SplitColumn := Int(11), "prec@10" := Num(0.1)],
      map[ModelColumn := Str("A"), SplitColumn := Num(1.0), "prec@10" := Num(0.2)],
      map[ModelColumn := Str("A1"), SplitColumn := Int(11), "prec@10" := Num(0.3)],
      map[ModelColumn := Str("A1"), SplitColumn := Num(1.0), "prec@10" := Num(0.4)]
    ])
  }

  lemma FloatFoldCells()
    ensures var t := FloatFoldExample();
      |t.rows| == 4 && SplitColumn in t.columns && ModelColumn in t.columns &&
      Get(t.rows[0], ModelColumn) == Str("A") && Get(t.rows[0], SplitColumn) == Int(11) &&
      Get(t.rows[1], ModelColumn) == Str("A") && Get(t.rows[1], SplitColumn) == Num(1.0) &&
      Get(t.rows[2], ModelColumn) == Str("A1") && Get(t.rows[2], SplitColumn) == Int(11) &&
      Get(t.rows[3], ModelColumn) == Str("A1") && Get(t.rows[3], SplitColumn) == Num(1.0)
  {
  }

  /** In a float64 fold column the integer 11 is keyed "11.0": "A" with fold
      11 and "A1" with fold 1.0 both give "A11.0". */
  lemma FloatFoldTexts()
    ensures ConcatKeys(FloatFoldExample())[0] == "A11.0"
    ensures ConcatKeys(FloatFoldExample())[3] == "A11.0"
  {
    var t := FloatFoldExample();
    FloatFoldCells();
    assert FloatColumn(t.rows, SplitColumn) by {
      assert Get(t.rows[1], SplitColumn).Num?;
    }
    NormalizeNameFixed("A");
    NormalizeNameFixed("A1");
    assert IntText(11) == "11" && IntText(1) == "1";
    assert ModelName(t, 0) == Str("A") && ModelName(t, 3) == Str("A1");
    assert ColumnText(t.rows, 0, SplitColumn) == "11.0";
    assert ColumnText(t.rows, 3, SplitColumn) == "1.0";
  }

  /** The source's check rejects the float-fold table although its (model,
      fold) pairs are unique; the corrected check accepts it. */
  lemma FloatFoldKeys()
    ensures NamesCheckAsWritten(FloatFoldExample()) == Err(ValueError(DuplicateModelNames))
    ensures NamesCheck(FloatFoldExample()).Ok?
  {
    var t := FloatFoldExample();
    FloatFoldCells();
    FloatFoldTexts();
    assert ConcatKeys(t)[0] == ConcatKeys(t)[3];
    NormalizeNameFixed("A");
    NormalizeNameFixed("A1");
    assert ModelName(t, 0) == ModelName(t, 1) == Str("A");
    assert ModelName(t, 2) == ModelName(t, 3) == Str("A1");
    assert !PairsRepeat(t);
  }

  /** The source's name check rejects a table whose (model, fold) pairs are
      unique and which passes every earlier check: "A" with fold 11 and "A1"
      with fold 1 both give the key "A11". The corrected check accepts it. */
  lemma ConcatKeyCollision()
    ensures BaseCheck(CollisionExample()) == Pass
    ensures SplitCheck(CollisionExample()) == Pass
    ensures NamesCheck(CollisionExample()).Ok?
    ensures NamesCheckAsWritten(CollisionExample()) == Err(ValueError(DuplicateModelNames))
  {
    var t := CollisionExample();
    assert "prec@10" in t.columns;
    assert !HasMissing(t);
    CollisionExampleFolds();
    CollisionExampleNames();
  }
}

=== FILE: views.dfy ===
/** The two chart views of the merged table (`_make_chart_data_fold`,
    `_make_chart_data_avg`) and the choice between them
    (`_create_chart_data`). The source memoises both views; they are pure,
    so the memo is left out and the views are plain functions. */
module Views {
  import opened Cells
  import opened Seqs
  import opened Outcomes
  import opened Tables
  import opened Construction

  /** The rows whose fold id is `fold`, in their original order. */
  function FilterFold(rows: seq<Row>, fold: Cell): seq<Row> {
    if |rows| == 0 then []
    else
      var p := rows[..|rows| - 1];
      FilterFold(p, fold) + (if Get(rows[|rows| - 1], SplitColumn) == fold then [rows[|rows| - 1]] else [])
  }

  /** The fold view keeps every row with the fold id and no other, and is
      never longer than the table. */
  lemma {:induction false} FilterFoldMembers(rows: seq<Row>, fold: Cell)
    ensures |FilterFold(rows, fold)| <= |rows|
    ensures forall x :: x in FilterFold(rows, fold) ==> x in rows && Get(x, SplitColumn) == fold
    ensures forall i :: 0 <= i < |rows| && Get(rows[i], SplitColumn) == fold ==> rows[i] in FilterFold(rows, fold)
    decreases |rows|
  {
    if |rows| > 0 {
      var p := rows[..|rows| - 1];
      FilterFoldMembers(p, fold);
      assert forall i :: 0 <= i < |p| ==> rows[i] == p[i];
      assert forall x :: x in p ==> x in rows;
    }
  }

  /** The positions of the rows whose fold id is `fold`, increasing. */
  function MatchingIndices(rows: seq<Row>, fold: Cell): (r: seq<nat>)
    ensures forall k :: 0 <= k < |r| ==> r[k] < |rows| && Get(rows[r[k]], SplitColumn) == fold
    ensures forall k, l :: 0 <= k < l < |r| ==> r[k] < r[l]
    ensures forall i :: 0 <= i < |rows| && Get(rows[i], SplitColumn) == fold ==> i in r
  {
    if |rows| == 0 then []
    else
      var p := rows[..|rows| - 1];
      var rest := MatchingIndices(p, fold);
      assert forall k :: 0 <= k < |rest| ==> rows[rest[k]] == p[rest[k]];
      if Get(rows[|rows| - 1], SplitColumn) == fold then rest + [|rows| - 1] else rest
  }

  /** The fold view is an order-preserving selection: entry `k` is the row at
      the `k`-th matching position, and every matching row is selected. */
  lemma {:induction false} FilterFoldSelects(rows: seq<Row>, fold: Cell)
    ensures var idx := MatchingIndices(rows, fold);
      FilterFold(rows, fold) == seq(|idx|, k requires 0 <= k < |idx| => rows[idx[k]])
    decreases |rows|
  {
    if |rows| > 0 {
      var p := rows[..|rows| - 1];
      FilterFoldSelects(p, fold);
      var rest := MatchingIndices(p, fold);
      var prev := seq(|rest|, k requires 0 <= k < |rest| => rows[rest[k]]);
      assert FilterFold(p, fold) == prev by {
        assert forall k :: 0 <= k < |rest| ==> rows[rest[k]] == p[rest[k]];
      }
      var last := rows[|rows| - 1];
      var idx := MatchingIndices(rows, fold);
      if Get(last, SplitColumn) == fold {
        assert idx == rest + [|rows| - 1];
        assert FilterFold(rows, fold) == prev + [last];
        assert seq(|idx|, k requires 0 <= k < |idx| => rows[idx[k]]) == prev + [last];
      } else {
        assert idx == rest;
        assert FilterFold(rows, fold) == prev;
      }
    }
  }

  /** `data[data[Split] == fold].reset_index(drop=True)`; without a fold
      column the lookup raises `KeyError`. */
  function FoldView(data: Table, fold: Cell): (r: Result<Table>)
    ensures SplitColumn !in data.columns ==> r == Err(KeyError(MissingColumn))
    ensures SplitColumn in data.columns ==> r.Ok? && r.value.columns == data.columns
    ensures r.Ok? ==> forall x :: x in r.value.rows ==> x in data.rows && Get(x, SplitColumn) == fold
  {
    if SplitColumn !in data.columns then Err(KeyError(MissingColumn))
    else
      FilterFoldSelects(data.rows, fold);
      Ok(Table(data.columns, FilterFold(data.rows, fold)))
  }

  /** Sum and count of the numbers among `cells` (pandas' `mean` skips NaN). */
  function Sum(cells: seq<Cell>): real {
    if |cells| == 0 then 0.0
    else (if IsNumeric(cells[0]) then Value(cells[0]) else 0.0) + Sum(cells[1..])
  }

  function Count(cells: seq<Cell>): nat {
    if |cells| == 0 then 0
    else (if IsNumeric(cells[0]) then 1 else 0) + Count(cells[1..])
  }

  /** The arithmetic mean of the numbers among `cells`; NaN when there is none. */
  function MeanOf(cells: seq<Cell>): Cell {
    if Count(cells) == 0 then Missing else Num(Sum(cells) / Count(cells) as real)
  }

  /** The mean is the value that, counted once per number, gives their sum. */
  lemma MeanTimesCount(cells: seq<Cell>)
    requires Count(cells) > 0
    ensures MeanOf(cells).Num? && Times(Count(cells), MeanOf(cells).x) == Sum(cells)
  {
    TimesIsProduct(Count(cells), MeanOf(cells).x);
  }

  /** `n` copies of `x` added up: multiplication kept linear for the solver. */
  function Times(n: nat, x: real): real {
    if n == 0 then 0.0 else x + Times(n - 1, x)
  }

  lemma {:induction false} TimesIsProduct(n: nat, x: real)
    ensures Times(n, x) == n as real * x
  {
    if n > 0 {
      TimesIsProduct(n - 1, x);
      assert n as real * x == (n - 1) as real * x + x;
    }
  }

  /** The sum of the numbers lies between their count times the least bound
      and their count times the greatest. */
  lemma {:induction false} SumBounds(cells: seq<Cell>, lo: real, hi: real)
    requires forall k :: 0 <= k < |cells| && IsNumeric(cells[k]) ==> lo <= Value(cells[k]) <= hi
    ensures Times(Count(cells), lo) <= Sum(cells) <= Times(Count(cells), hi)
    decreases |cells|
  {
    if |cells| > 0 {
      var rest := cells[1..];
      assert forall k :: 0 <= k < |rest| ==> rest[k] == cells[k + 1];
      SumBounds(rest, lo, hi);
      if IsNumeric(cells[0]) {
        assert lo <= Value(cells[0]) <= hi;
        assert Count(cells) == Count(rest) + 1;
      }
    }
  }

  /** The mean lies between the least and the greatest value averaged. */
  lemma MeanBounds(cells: seq<Cell>, lo: real, hi: real)
    requires forall k :: 0 <= k < |cells| && IsNumeric(cells[k]) ==> lo <= Value(cells[k]) <= hi
    requires Count(cells) > 0
    ensures MeanOf(cells).Num? && lo <= MeanOf(cells).x <= hi
  {
    SumBounds(cells, lo, hi);
    MeanBetween(Sum(cells), Count(cells), lo, hi);
  }

  lemma MeanBetween(t: real, n: nat, lo: real, hi: real)
    requires n > 0 && Times(n, lo) <= t <= Times(n, hi)
    ensures lo <= t / n as real <= hi
  {
    TimesIsProduct(n, lo);
    TimesIsProduct(n, hi);
    QuotientBetween(t, n as real, lo, hi);
  }

  lemma QuotientBetween(s: real, n: real, lo: real, hi: real)
    requires n > 0.0 && n * lo <= s <= n * hi
    ensures lo <= s / n <= hi
  {
    var q := s / n;
    assert q * n == s;
    assert n * (q - lo) >= 0.0;
    assert n * (hi - q) >= 0.0;
  }

  /** Some listed column holds a string in some row. */
  predicate HasString(rows: seq<Row>, cols: seq<string>) {
    exists i, c :: 0 <= i < |rows| && c in cols && Get(rows[i], c).Str?
  }

  /** One row of `groupby(Model, sort=False).mean()`: the model and the mean
      of each metric over that model's rows. */
  function MeanRow(rows: seq<Row>, model: Cell, metricNames: seq<string>): Row {
    (map c | c in metricNames :: MeanOf(Column(Matches(rows, model), c)))[ModelColumn := model]
  }

  lemma GetMeanRow(rows: seq<Row>, model: Cell, metricNames: seq<string>, c: string)
    requires c in metricNames && c != ModelColumn
    ensures Get(MeanRow(rows, model, metricNames), c) == MeanOf(Column(Matches(rows, model), c))
  {
  }

  /** The per-model mean rows, one per key. */
  function MeanRows(rows: seq<Row>, keys: seq<Cell>, metricNames: seq<string>): seq<Row> {
    seq(|keys|, k requires 0 <= k < |keys| => MeanRow(rows, keys[k], metricNames))
  }

  /** `data[cols]`: every row reduced to the listed columns. */
  function Projections(rows: seq<Row>, cols: seq<string>): seq<Row> {
    seq(|rows|, i requires 0 <= i < |rows| => Project(rows[i], cols))
  }

  /** The models the average view groups by: the present model names, each
      once, in order of first appearance (`groupby(sort=False)`). */
  function GroupModels(app: App): seq<Cell> {
    Distinct(NonMissing(Column(app.data.rows, ModelColumn)))
  }

  /** The per-model means, keyed by model. */
  function MeansTable(app: App): Table {
    Table([ModelColumn] + app.metricNames, MeanRows(app.data.rows, GroupModels(app), app.metricNames))
  }

  /** The means table has one row per group, keyed by the group's model in
      order, so its keys are unique and none is NaN. */
  lemma MeansTableKeys(app: App)
    ensures Column(MeansTable(app).rows, ModelColumn) == GroupModels(app)
    ensures NoDup(Column(MeansTable(app).rows, ModelColumn))
    ensures Missing !in Column(MeansTable(app).rows, ModelColumn)
  {
    var t := MeansTable(app);
    var keys := GroupModels(app);
    assert forall k :: 0 <= k < |keys| ==> Get(t.rows[k], ModelColumn) == keys[k];
  }

  /** `data[[Model] + meta_names].drop_duplicates()`: the projection of every
      row, each distinct projection once. */
  function MetaTable(app: App): (r: Table)
    ensures r.columns == [ModelColumn] + app.metaNames
    ensures NoDup(r.rows)
    ensures forall i :: 0 <= i < |app.data.rows| ==> Project(app.data.rows[i], r.columns) in r.rows
    ensures forall x :: x in r.rows ==> exists i :: 0 <= i < |app.data.rows| && x == Project(app.data.rows[i], r.columns)
  {
    var cols := [ModelColumn] + app.metaNames;
    var p := Projections(app.data.rows, cols);
    forall i | 0 <= i < |app.data.rows|
      ensures Project(app.data.rows[i], cols) in Distinct(p)
    {
      assert p[i] == Project(app.data.rows[i], cols) && p[i] in p;
    }
    Table(cols, Distinct(p))
  }

  /** `_make_chart_data_avg`: per-model means in order of first appearance,
      then the de-duplicated metadata columns merged back on the model. */
  function AvgView(app: App): (r: Result<Table>)
    ensures r.Err? ==> r.error == KeyError(MissingColumn) || r.error == TypeError(NonNumericMean)
    ensures ((forall c :: c in app.metricNames + app.metaNames ==> c in app.data.columns) &&
      ModelColumn in app.data.columns && !HasString(app.data.rows, app.metricNames)) ==> r.Ok?
  {
    var d := app.data;
    var metricCols := [ModelColumn] + app.metricNames;
    var metaCols := [ModelColumn] + app.metaNames;
    if exists c :: c in metricCols && c !in d.columns then Err(KeyError(MissingColumn))
    else if HasString(d.rows, app.metricNames) then Err(TypeError(NonNumericMean))
    else if exists c :: c in metaCols && c !in d.columns then Err(KeyError(MissingColumn))
    else
      Ok(LeftMerge(MeansTable(app), MetaTable(app)))
  }

  /** In a consistent app two rows carry the same metadata exactly when they
      belong to the same model. */
  lemma ProjectSameModel(app: App, i: int, j: int)
    requires Consistent(app) && 0 <= i < |app.data.rows| && 0 <= j < |app.data.rows|
    ensures var rows := app.data.rows;
      var cols := [ModelColumn] + app.metaNames;
      Get(rows[i], ModelColumn) == Get(rows[j], ModelColumn) <==> Project(rows[i], cols) == Project(rows[j], cols)
  {
    var rows := app.data.rows;
    var cols := [ModelColumn] + app.metaNames;
    if Get(rows[i], ModelColumn) == Get(rows[j], ModelColumn) {
      assert forall c :: c in cols ==> Get(rows[i], c) == Get(rows[j], c);
    }
    assert Project(rows[i], cols)[ModelColumn] == Get(rows[i], ModelColumn);
    assert Project(rows[j], cols)[ModelColumn] == Get(rows[j], ModelColumn);
  }

  /** The de-duplicated metadata has one row per model, so the merge back
      onto the means adds no rows. */
  lemma MetaRowsUnique(app: App)
    requires Consistent(app)
    ensures NoDup(Column(Distinct(Projections(app.data.rows, [ModelColumn] + app.metaNames)), ModelColumn))
  {
    var rows := app.data.rows;
    var cols := [ModelColumn] + app.metaNames;
    var p := Projections(rows, cols);
    var m := Distinct(p);
    var col := Column(m, ModelColumn);
    forall a, b | 0 <= a < b < |col|
      ensures col[a] != col[b]
    {
      assert m[a] in p && m[b] in p;
      var i :| 0 <= i < |p| && p[i] == m[a];
      var j :| 0 <= j < |p| && p[j] == m[b];
      ProjectSameModel(app, i, j);
      assert p[i][ModelColumn] == Get(rows[i], ModelColumn);
      assert p[j][ModelColumn] == Get(rows[j], ModelColumn);
    }
  }

  /** The metadata row a model joins with is the projection of any of that
      model's rows. */
  lemma MetaRowFor(app: App, i: int)
    requires Consistent(app) && 0 <= i < |app.data.rows|
    ensures var p := Projections(app.data.rows, [ModelColumn] + app.metaNames);
      RowFor(Distinct(p), Get(app.data.rows[i], ModelColumn)) == p[i]
  {
    var rows := app.data.rows;
    var cols := [ModelColumn] + app.metaNames;
    var p := Projections(rows, cols);
    var m := Distinct(p);
    var key := Get(rows[i], ModelColumn);
    assert p[i] in m && Get(p[i], ModelColumn) == key;
    var ms := Matches(m, key);
    MatchesMembers(m, key, p[i]);
    var x := ms[0];
    assert x in ms;
    MatchesMembers(m, key, x);
    assert x in p;
    var j :| 0 <= j < |p| && p[j] == x;
    assert Get(p[j], ModelColumn) == Get(rows[j], ModelColumn);
    ProjectSameModel(app, i, j);
  }

  /** With normalised model names nothing is NaN, so the grouping keys are
      the distinct model names. */
  lemma GroupModelsOfConsistent(app: App)
    requires Consistent(app)
    ensures GroupModels(app) == Distinct(Column(app.data.rows, ModelColumn))
  {
    var col := Column(app.data.rows, ModelColumn);
    assert Missing !in col by {
      forall i | 0 <= i < |col|
        ensures col[i] != Missing
      {
        assert Get(app.data.rows[i], ModelColumn).Str?;
      }
    }
  }

  lemma AvgViewColumns(app: App)
    requires forall c :: c in app.metaNames ==> c != ModelColumn && c !in app.metricNames
    ensures LeftMerge(MeansTable(app), MetaTable(app)).columns == [ModelColumn] + app.metricNames + app.metaNames
  {
    var leftCols := [ModelColumn] + app.metricNames;
    var excluded := set c | c in leftCols;
    assert ModelColumn in excluded;
    assert Without([ModelColumn], excluded) == [];
    WithoutAppend([ModelColumn], app.metaNames, excluded);
    WithoutNone(app.metaNames, excluded);
    assert Without([ModelColumn] + app.metaNames, excluded) == app.metaNames;
  }

  /** Merging unique-keyed metadata onto the mean rows keeps them one per
      key and fills the metadata columns from the key's metadata row. */
  lemma MergeOfMeans(rows: seq<Row>, keys: seq<Cell>, metricNames: seq<string>, right: Table)
    requires NoDup(Column(right.rows, ModelColumn))
    ensures var left := Table([ModelColumn] + metricNames, MeanRows(rows, keys, metricNames));
      var v := LeftMerge(left, right);
      && |v.rows| == |keys|
      && (forall k :: 0 <= k < |keys| ==> Get(v.rows[k], ModelColumn) == keys[k])
      && (forall k, c :: 0 <= k < |keys| && c in metricNames && c != ModelColumn ==>
            Get(v.rows[k], c) == MeanOf(Column(Matches(rows, keys[k]), c)))
      && (forall k, c :: 0 <= k < |keys| && c in right.columns && c !in left.columns ==>
            Get(v.rows[k], c) == Get(RowFor(right.rows, keys[k]), c))
  {
    var left := Table([ModelColumn] + metricNames, MeanRows(rows, keys, metricNames));
    var v := LeftMerge(left, right);
    LeftMergeCells(left, right);
    forall k | 0 <= k < |keys|
      ensures Get(v.rows[k], ModelColumn) == keys[k]
    {
      LeftMergeCell(left, right, k, ModelColumn);
    }
    forall k, c | 0 <= k < |keys| && c in metricNames && c != ModelColumn
      ensures Get(v.rows[k], c) == MeanOf(Column(Matches(rows, keys[k]), c))
    {
      LeftMergeCell(left, right, k, c);
      GetMeanRow(rows, keys[k], metricNames, c);
    }
    forall k, c | 0 <= k < |keys| && c in right.columns && c !in left.columns
      ensures Get(v.rows[k], c) == Get(RowFor(right.rows, keys[k]), c)
    {
      LeftMergeCell(left, right, k, c);
    }
  }

  /** In a consistent app with numeric metrics the average view succeeds with
      one row per model, in order of first appearance: the model, the mean of
      each metric over that model's rows, and the model's metadata. */
  lemma AvgViewOfConsistent(app: App)
    requires Consistent(app)
    requires !HasString(app.data.rows, app.metricNames)
    ensures var d := app.data;
      var keys := Distinct(Column(d.rows, ModelColumn));
      && AvgView(app).Ok?
      && AvgView(app).value.columns == [ModelColumn] + app.metricNames + app.metaNames
      && |AvgView(app).value.rows| == |keys|
      && (forall k :: 0 <= k < |keys| ==> Get(AvgView(app).value.rows[k], ModelColumn) == keys[k])
      && (forall k, c :: 0 <= k < |keys| && c in app.metricNames ==>
            Get(AvgView(app).value.rows[k], c) == MeanOf(Column(Matches(d.rows, keys[k]), c)))
      && (forall k, i, c :: (0 <= k < |keys| && 0 <= i < |d.rows| && c in app.metaNames &&
            Get(d.rows[i], ModelColumn) == keys[k]) ==> Get(AvgView(app).value.rows[k], c) == Get(d.rows[i], c))
  {
    var d := app.data;
    GroupModelsOfConsistent(app);
    assert AvgView(app) == Ok(LeftMerge(MeansTable(app), MetaTable(app)));
    AvgViewColumns(app);
    MetaRowsUnique(app);
    var keys := GroupModels(app);
    MergeOfMeans(d.rows, keys, app.metricNames, MetaTable(app));
    var v := LeftMerge(MeansTable(app), MetaTable(app));
    forall k, i, c | 0 <= k < |keys| && 0 <= i < |d.rows| && c in app.metaNames && Get(d.rows[i], ModelColumn) == keys[k]
      ensures Get(v.rows[k], c) == Get(d.rows[i], c)
    {
      MetaRowFor(app, i);
      assert c in MetaTable(app).columns && c !in MeansTable(app).columns;
      assert Get(RowFor(MetaTable(app).rows, keys[k]), c) == Get(Projections(d.rows, [ModelColumn] + app.metaNames)[i], c);
    }
  }

  /** `_create_chart_data`: the average view when averaging is on or no fold
      is selected, the fold view otherwise. */
  function ChartData(app: App, useAvg: bool, fold: Option<Cell>): (r: Result<Table>)
    ensures useAvg || fold.None? ==> r == AvgView(app)
    ensures !useAvg && fold.Some? ==> r == FoldView(app.data, fold.value)
  {
    if useAvg || fold.None? then AvgView(app) else FoldView(app.data, fold.value)
  }
}
